=== FILE: README.md ===
# Minesweeper game-state engine, modelled in Dafny

This project models the game logic of `Minesweeper.py`: the state kept by the `Minesweeper` class and
by its `draw` loop, and the operations that change it.

The state is:
- three `rows × cols` integer grids, written cell by cell:
  - `user_grid`: what the player sees;
  - `hidden_grid`: the mines and the adjacency numbers;
  - `cleared_grid`: the flood fill's marks, which are never reset;
- the cell encodings `CLEAR = 0`, `UNTOUCHED = 9`, `FLAG = 10` and `MINE = -1`;
- the flag budget `flag_count`;
- the `first_click`, `mine_triggered` and `matching_boards` flags of the frame loop.

The operations are:
- first-click-safe mine placement by rejection sampling;
- adjacency numbering;
- the recursive flood fill, which refunds flags it sweeps over;
- left-click and right-click handling;
- the win scan, with defeat reported before victory.

Files:
- `rules.dfy` (module `MineRules`) holds the value-level rules:
  - the encodings, the neighbourhood of a cell and the number of mines;
  - the exact flag budget, a single right click (`ToggleFlag`) and the outcome choice (`Outcome`);
  - lemmas about each of them.
- `fill_trace.dfy` (module `FillTrace`) holds the ghost record of where the flood fill reaches:
  - `Trace` keeps, for each opened cell, the 0 cell whose block loop opened it and the moment it was opened;
  - `Grew` says how the shown cells grew between two states and that each new cell is traced back to a root;
  - `Chain` is a path of 0 cells, each step moving into the 3×3 block of the cell before;
  - lemmas join growths, change their roots and turn a trace into a chain.
- `minesweeper.dfy` (module `MinesweeperGame`) holds the presses and the class `Minesweeper`:
  - the three grids are `array2<int>` constants whose cells the methods update in place;
  - `flagCount` is a `real`, and the three control flags are `bool` fields;
  - each source function that changes the game is a method with a `modifies` clause.

Four ghost sets give abstract views of the grids: `mines`, `flags`, `revealed` and `cleared`. Each is
tied to its array by a predicate (`MinesTied`, `FlagsTied`, `RevealedTied`, `ClearedTied`).

The class invariant is `Valid()`. It holds from construction through every click. It says:
- flag conservation: `flagCount + |flags| == rows*cols/6`;
- before the first click, nothing is revealed or mined;
- after the first click:
  - every non-mine hidden cell holds its number of adjacent mines, a value in 0..8;
  - every revealed 0 cell has its whole in-bounds 3×3 block revealed (fill closure);
- until a mine is triggered, no revealed cell is a mine.

The flood fill is four mutually recursive methods, following the source's recursion and double
loop. The cycle is ClearSurrounding → FillBlock → FillRow → VisitCell → ClearSurrounding:
- `ClearSurrounding` reveals the cell;
- `FillBlock` runs the outer loop over the rows of the 3×3 block;
- `FillRow` runs the inner loop over one row of it;
- `VisitCell` handles one pass of that inner loop.

Their termination measure is the set of cells still unmarked in the cleared grid. Their closure proof
carries a ghost set of the 0 cells whose blocks are still being visited further up the recursion.

Randomness becomes a parameter: a sequence of coordinate draws that stands in for the calls to
`random.randint`. `MineRules.DrawnOutside(draws, r, c)` is the set of drawn cells outside the 3×3 block
of the first click. The placement loop stops at the first prefix of the draws whose
`DrawnOutside` reaches the mine count (`MineRules.SampledUntil`), and the mines are exactly that
prefix's `DrawnOutside`.

The fill's reach is stated as reachability. A ghost field `trace` of the class records, for each cell
the fill opens, the 0 cell whose block loop opened it and the moment it did so. Every fill method
ensures `Grew(old(revealed), old(trace), revealed, trace, roots, Zeros())`:
- each newly revealed cell that is not a root was opened from a 0 cell whose 3×3 block holds it;
- that 0 cell is a root or a cell revealed earlier in the same fill.

For a click the root is the clicked cell. `FillTrace.ChainFromRoot` turns the record into a path:
every newly revealed cell is reached from the clicked cell through a chain of 0 cells, each in the
3×3 block of the one before. `GrewFeeds` derives a coarser bound from it: every new cell lies in
`FedBy(revealed)`, the cells in the 3×3 block of a revealed 0 cell.

A mouse press becomes an `Event(button, row, column)` already in grid coordinates.
`Pressed(events, n, b)` is the set of cells pressed with button `b` among the first `n` presses.

The flag budget and the mine count are computed differently:
- The mine count is `int(rows*cols/6)`, the quotient truncated (Minesweeper.py:243).
- `flag_count` starts at the unrounded quotient `rows*cols/6` (Minesweeper.py:75).
- A flag is accepted while `flag_count > 0` (Minesweeper.py:171).

So when `rows*cols` is not a multiple of 6, one flag more than there are mines can be planted, and
the budget ends between -1 and 0. On the 10×10 preset that is 17 flags against 16 mines.
`MineRules.TenByTenTakesSeventeenFlags` shows this case, and `MineRules.FlagCeiling` gives the general
bound.

## Model

| member | source | states |
|---|---|---|
| MineRules.MineTarget | Minesweeper.py:74 | the mine count is the integer part of rows*cols/6: `6n <= rows*cols < 6(n+1)` |
| MineRules.InitialBudget | Minesweeper.py:75 | the initial flag budget is exactly rows*cols/6, between the mine count and the mine count plus one |
| MineRules.Neighbours | Minesweeper.py:260-270 | the cells counted for a number are exactly the in-bounds cells of the 3×3 block other than the centre, and there are at most 8 of them |
| MineRules.ToggleFlag | Minesweeper.py:170-176 | a right click conserves budget plus flag; the result is FLAG exactly when the cell was UNTOUCHED and the budget positive; a cell only moves between UNTOUCHED and FLAG; a budget above -1 stays above -1 |
| MineRules.ToggleTwice | Minesweeper.py:170-176 | two right clicks on the same cell give back the cell and the budget, for every budget above -1 |
| MineRules.FlagCeiling | Minesweeper.py:171-176 | with the budget conserved and above -1, the planted flags are at most the mine count plus one, and at most the mine count when rows*cols is a multiple of 6 |
| MineRules.TenByTenTakesSeventeenFlags | Minesweeper.py:74-75 | on a 10×10 board there are 16 mines; a 17th flag is accepted and an 18th is not |
| MineRules.Outcome | Minesweeper.py:236-239 | defeat exactly when a mine was triggered; victory exactly when the boards match and no mine was triggered; in progress otherwise |
| MineRules.SafeZoneCountsZero | Minesweeper.py:251-257 | with no mine in the 3×3 block around the first click, the first-clicked cell has no adjacent mine, so the fill from it expands |
| MineRules.NoMineNextToZero | Minesweeper.py:277-283 | every cell of the block of a non-mine 0 cell is not a mine, so the fill never enters a mine |
| MineRules.ScanStep | Minesweeper.py:264-269 | one step of the adjacency scan adds one exactly for an in-bounds mine other than the centre |
| MinesweeperGame.Minesweeper.constructor | Minesweeper.py:69-75 | three all-UNTOUCHED grids, the budget rows*cols/6, first click pending and no mine triggered, and the invariant holds |
| MinesweeperGame.Minesweeper.CountAdjacentMines | Minesweeper.py:260-270 | the result is the number of mines among the in-bounds neighbours, the cell itself excluded, and is at most 8 |
| MinesweeperGame.Minesweeper.PlaceMines | Minesweeper.py:243-253 | mines lie exactly on the MINE cells; none lies in the 3×3 block of the first click; the mines are exactly the distinct drawn cells outside that block, up to the shortest prefix of the draws holding the mine target of them; the count is at most the target, falls short only when every draw was used, and equals the target whenever the draws hold that many distinct cells outside the block |
| MinesweeperGame.Minesweeper.DrawOnce | Minesweeper.py:248-253 | one draw: the mines gain the drawn cell exactly when it lies outside the first click's block; a mine is created exactly when that cell was not yet one; cells outside the block stay UNTOUCHED or MINE |
| MinesweeperGame.Minesweeper.PlaceOneMine | Minesweeper.py:244-253 | the `while not mine_created` loop: it consumes draws until one adds a mine, so the mines grow by one exactly when a mine was created, and it stops short of that only when the draws run out |
| MinesweeperGame.Minesweeper.OpenFirstCell | Minesweeper.py:257 | the fill from the first-clicked cell, whose block holds no mine: the cell is 0, its block is revealed, no mine is revealed and the fill is closed; every other revealed cell is reached from the clicked cell through a chain of 0 cells (`Grew` rooted at that cell), and so lies in the block of a revealed 0 cell |
| MinesweeperGame.Minesweeper.FillRow | Minesweeper.py:279-283 | the inner loop over one row of the block: every in-bounds cell of the block up to the end of that row is revealed and no mine is; every new reveal is traced to the 0 cells whose block loops are running (`Grew` rooted at `inner`), and so lies in the block of a revealed 0 cell |
| MinesweeperGame.Minesweeper.MarkCleared | Minesweeper.py:282 | an unmarked cell becomes CLEAR in the cleared grid and joins the marked set, nothing else changes |
| MinesweeperGame.Minesweeper.Cover | Minesweeper.py:172-175 | the cell writes of a right click on a hidden cell: the cell becomes FLAG or UNTOUCHED as asked, the flag set gains or loses exactly that cell, and no other cell changes |
| MinesweeperGame.Minesweeper.HandlePresses | Minesweeper.py:143-176 | the presses are handled in order until one triggers a mine, which is a left press on a mine; the board is built at most once, by a left press of the frame with the mines and counts of `PlaceMines` (`BuiltBy`), no earlier press of the frame having opened a covered cell, and otherwise the mines stay as they are; every new reveal is reached from a handled left-pressed cell through a chain of 0 cells (`Grew` rooted at those cells); every handled left press on a cell neither flagged at the start nor right-pressed before is revealed; a cell no handled press right-clicked carries a flag exactly when it did before and is still hidden |
| MinesweeperGame.FlagsAfterPress | Minesweeper.py:168-176 | flag bookkeeping over one press: a right press changes only its own cell's flag, any other press only drops flags from revealed cells, so the flags outside the right-pressed cells stay the start's flags minus the revealed cells |
| MineRules.DrawnOutsideStep | Minesweeper.py:248-253 | one more draw adds its cell to the drawn cells outside the first click's block exactly when it is outside that block |
| MinesweeperGame.Minesweeper.NumberBoard | Minesweeper.py:254-256 | every non-mine hidden cell holds its number of adjacent mines; mine cells keep MINE; every value is in -1..8 |
| MinesweeperGame.Minesweeper.CreateHiddenBoard | Minesweeper.py:242-257 | a complete numbered board with the safe zone and the mines of `PlaceMines` (exactly the mine target when the draws hold enough cells outside the block); the clicked cell is 0; its whole block is revealed; no mine is revealed; the fill is closed; every revealed cell is reached from the clicked cell through a chain of 0 cells (`Grew` rooted at it); unrevealed cells keep their player value |
| MinesweeperGame.Minesweeper.RevealCell | Minesweeper.py:274-276 | the cell now shows its hidden value; a flag on it is refunded to the budget; flag conservation and the ties are kept |
| MinesweeperGame.Minesweeper.ClearSurrounding | Minesweeper.py:273-283 | the cell is revealed; from a 0 cell its whole block is revealed; from another cell only the cell is; every new reveal is traced to the start cell or to a 0 cell whose block loop is running further up the recursion (`Grew`), and lies in the block of a revealed 0 cell; no mine is revealed; revealed 0 cells are closed; unrevealed cells are untouched; the ties and budget conservation are kept |
| MinesweeperGame.Minesweeper.FillBlock | Minesweeper.py:277-283 | after the double loop the whole in-bounds block of the 0 cell is revealed and no mine is; every new reveal is traced to the 0 cells whose block loops are running (`Grew` rooted at `inner`), and lies in the block of a revealed 0 cell |
| MinesweeperGame.Minesweeper.VisitCell | Minesweeper.py:280-283 | an in-bounds block cell ends up revealed, whether this pass marks it or an earlier fill already did; an off-grid or already-marked cell leaves the player grid, the cleared grid and every field unchanged; the fill the pass starts is traced to the 0 cells whose block loops are running, not to the visited cell (`Grew` rooted at `inner`) |
| MinesweeperGame.Minesweeper.LeftClick | Minesweeper.py:153-167 | the cell is revealed and stays so with all earlier ones; every new reveal is reached from the cell through a chain of 0 cells (`Grew` rooted at it); flags on revealed cells are gone and no other flag changes. The first click places the mines as `PlaceMines` states and reveals the block. A later click leaves the hidden board unchanged, triggers a mine exactly when the cell is one, and then reveals only that cell; a later click on a non-0 cell reveals only that cell. The invariant is kept |
| MinesweeperGame.Minesweeper.FirstLeftClick | Minesweeper.py:157-160 | the board is built around the clicked cell, with the mines of `PlaceMines`; the cell is safe and its block revealed; every revealed cell is reached from the clicked cell through a chain of 0 cells (`Grew` rooted at it); the session leaves its first phase |
| MinesweeperGame.Minesweeper.LaterLeftClick | Minesweeper.py:161-167 | the hidden board is unchanged; the cell is revealed; a mine is triggered exactly when it holds one, and then nothing else changes; on a non-0 cell only that cell is revealed; otherwise every new reveal is reached from the cell through a chain of 0 cells (`Grew` rooted at it) |
| MinesweeperGame.Minesweeper.RightClick | Minesweeper.py:168-176 | the cell and budget become `ToggleFlag` of the old ones; no other cell changes; the invariant, including flag conservation, is kept |
| MinesweeperGame.Minesweeper.HandleClick | Minesweeper.py:152-176 | off-grid presses, buttons other than 1 and 3, and left clicks on a non-UNTOUCHED cell change nothing. Only the first left click on an UNTOUCHED cell builds the board, with the mines and counts of `PlaceMines`; otherwise the mines and the hidden board stay as they are. A left click on an UNTOUCHED cell reveals it, and a later one triggers a mine exactly when the cell is one, then revealing only that cell. Every new reveal is reached from the left-pressed cell through a chain of 0 cells (`Grew`). A right click sets the cell and budget to `ToggleFlag` of the old ones, changes no other cell and reveals nothing. Any other press changes only cells it reveals, and drops only their flags |
| FillTrace.ChainFromRoot | Minesweeper.py:277-283 | following the record back from a newly shown cell ends at a root: there is a path that starts at a root, ends at the cell, has only newly shown cells after its start, and whose every step but the last is a 0 cell holding the next one in its 3×3 block |
| FillTrace.OpenThenFill | Minesweeper.py:274-283 | showing the start cell and then filling from it is one growth from the state before, and the start cell was the first cell opened |
| FillTrace.GrewJoin | Minesweeper.py:277-283 | two growths in a row traced to the same roots are one growth traced to them: the first growth's record survives the second |
| FillTrace.GrewReroot | Minesweeper.py:280-283 | a fill started at a block cell r of a running 0 cell, traced to the running cells and r, is traced to the running cells alone, given that r was opened first from that 0 cell and that, when r is an earlier 0 cell, nothing new lies in its block |
| FillTrace.GrewPress | Minesweeper.py:143-167 | the growth of the earlier presses of a frame, traced to their pressed cells, followed by one more press's growth, traced to its cell, is one growth traced to all pressed cells that are shown |
| MinesweeperGame.Pressed | Minesweeper.py:143-176 | every press among the first n with the given button has its cell in the set |
| MinesweeperGame.PressedStep | Minesweeper.py:143 | one more press adds its cell to the pressed cells of a button exactly when it is a press of that button |
| MinesweeperGame.OpenedStep | Minesweeper.py:153-167 | when press n, if it opens a covered cell, shows that cell and nothing is hidden again, every such press up to n has its cell shown |
| MinesweeperGame.PressExtends | Minesweeper.py:143-176 | what one handled press states (its reveal, its growth traced to its cell, its flag change) extends what is known of the earlier presses of the frame to one press more |
| MinesweeperGame.PressesStart | Minesweeper.py:143 | before any press of the frame, with no flag on a revealed cell, the loop's facts hold: nothing has grown, no press is owed a reveal, the board is as it was and the flags are the start's flags |
| MinesweeperGame.Minesweeper.GrewFeeds | Minesweeper.py:277-283 | a growth traced to shown roots lies within the roots and the 3×3 blocks of the revealed 0 cells |
| MinesweeperGame.Minesweeper.ClosedBlock | Minesweeper.py:277-283 | a revealed 0 cell whose block loop is not still running has its whole in-bounds block revealed |
| MinesweeperGame.Minesweeper.VisitTraced | Minesweeper.py:280-283 | the fill started at a block cell of a running 0 cell is traced to the running cells alone, and lies in the blocks of revealed 0 cells |
| MinesweeperGame.Minesweeper.FillFromClick | Minesweeper.py:166-167 | the fill a later click starts from its 0 cell keeps the invariant, changes only cells it reveals, and reveals only cells reached from the clicked cell through a chain of 0 cells |
| MinesweeperGame.Minesweeper.HandleNext | Minesweeper.py:143-176 | one turn of the event loop: after press k, the frame's facts hold for the first k+1 presses (board built at most once, by a left press with no earlier press having opened a covered cell; reveals traced to the left-pressed cells; opened presses; flags) |
| MinesweeperGame.Minesweeper.CheckVictory | Minesweeper.py:220-228 | true exactly when every non-mine hidden cell shows its hidden value to the player |
| MinesweeperGame.Minesweeper.Frame | Minesweeper.py:139-239 | the invariant is kept and no revealed cell is covered again; the presses after a triggered mine are skipped, and the mine is the last handled left press; the board is built at most once, by a left press of the frame (`BuiltBy`), no earlier press of the frame having opened a covered cell, and otherwise the mines stay as they are; every new reveal is reached from a handled left-pressed cell through a chain of 0 cells, and so is a left-pressed cell or lies in the block of a revealed 0 cell; every handled left press on a cell neither flagged at the start nor right-pressed before is revealed; flags change only by right presses and reveals; the boards match exactly when the first click is past and the board is won; the status is defeat before victory |
| MinesweeperGame.Minesweeper.WonIffSafeCellsRevealed | Minesweeper.py:220-230 | once the board exists, winning is the same as every non-mine cell being revealed |
| MinesweeperGame.Minesweeper.CoveredCellBlocksVictory | Minesweeper.py:220-230 | an UNTOUCHED or flagged non-mine cell prevents victory |
| MinesweeperGame.Minesweeper.FreshBoardMatches | Minesweeper.py:220 | before the first click an unflagged board already passes the raw comparison, which is why the scan waits for the first click |
| MinesweeperGame.Minesweeper.FlagsWithinCeiling | Minesweeper.py:171-176 | in every reachable state the flags planted are at most the mine count plus one, and at most the mine count when rows*cols is a multiple of 6 |

## Left out

- Rendering, fonts, images and the victory and defeat screens are left out. They are display only.
- The start screen and the difficulty buttons are left out for the same reason. `rows` and `cols` are constructor parameters.
- Event polling, the quit event and the conversion of pixel positions to grid coordinates are left out. They are input plumbing; a press arrives as an `Event` in grid coordinates.
- The `while not mine_triggered and not matching_boards` loop over frames is left out. `Frame` models a single pass of it.
- `random.randint` is replaced by a finite sequence of draws, and the distribution is not modelled.
- PlaceMines: places exactly `int(rows*cols/6)` mines only when the draws contain that many distinct cells outside the first click's block. With fewer it stops when the draws run out, where the source would keep drawing. When the safe zone leaves fewer free cells than the target, the source never ends; the model runs out of draws instead.
- CreateHiddenBoard, LeftClick, FirstLeftClick: share the PlaceMines condition on the draws for the exact mine count.
- `flag_count` is a Python float. It is modelled as an exact `real`, so float rounding is not modelled. The `int(flag_count)` display on screen is not modelled either.
- HandlePresses: states that a left press reveals its cell only for cells neither flagged at the start nor right-pressed earlier in the same frame; for the others it states that flags change only by right presses and reveals.
- Frame: carries the same gap as HandlePresses about which left presses are stated to reveal their cell.
- HandleNext: carries the same gap as HandlePresses, through the loop invariant it extends by one press.
- HandleClick: requires that no mine has been triggered yet. The source stops handling the frame's events after a mine, and `Frame` models that stop.

=== FILE: fill_trace.dfy ===
/** The ghost record that shows where the flood fill reaches: every cell the fill opens is
    traced back, through a chain of 0 cells each in the 3×3 block of the one before, to the
    cell the player clicked. */
module FillTrace {
  import opened MineRules

  /** For each opened cell, the 0 cell whose block loop opened it (`from`) and the moment it was
      opened (`at`); `clock` counts the openings so far. */
  datatype Trace = Trace(from: map<Cell, Cell>, at: map<Cell, nat>, clock: nat)

  /** The record after cell x is opened from `origin`. */
  function Opened(t: Trace, x: Cell, origin: Cell): (t': Trace)
    ensures t'.clock == t.clock + 1 && x in t'.from && t'.from[x] == origin && x in t'.at && t'.at[x] == t.clock
  {
    Trace(t.from[x := origin], t.at[x := t.clock], t.clock + 1)
  }

  /** Cell x was opened from a 0 cell (a cell of `zeros`) whose block holds it, and that 0 cell is
      a root or a cell of `added` opened before x. */
  predicate Linked(added: set<Cell>, roots: set<Cell>, zeros: set<Cell>, t: Trace, x: Cell)
  {
    x in t.from && x in t.at && t.from[x] in zeros && InBlock(x.0, x.1, t.from[x].0, t.from[x].1) &&
    (t.from[x] in roots || (t.from[x] in added && t.from[x] in t.at && t.at[t.from[x]] < t.at[x]))
  }

  /** Every cell of `added` that is not a root is linked. */
  predicate Traced(added: set<Cell>, roots: set<Cell>, zeros: set<Cell>, t: Trace)
  {
    forall x {:trigger Linked(added, roots, zeros, t, x)} :: x in added && x !in roots ==> Linked(added, roots, zeros, t, x)
  }

  /** Cell x was opened at a moment in [lo, t.clock). */
  predicate OpenedIn(t: Trace, lo: nat, x: Cell)
  {
    x in t.at && lo <= t.at[x] < t.clock
  }

  /** Every cell of `added` was opened at a moment in [lo, t.clock). */
  predicate OpenedSince(added: set<Cell>, t: Trace, lo: nat)
  {
    forall x {:trigger OpenedIn(t, lo, x)} :: x in added ==> OpenedIn(t, lo, x)
  }

  /** The record of x in t0, if any, is the same in t. */
  predicate Stays(t0: Trace, t: Trace, x: Cell)
  {
    (x in t0.from ==> x in t.from && t.from[x] == t0.from[x]) && (x in t0.at ==> x in t.at && t.at[x] == t0.at[x])
  }

  /** `t` extends `t0` on `keys`: the clock has not gone back and their records are kept. */
  predicate Kept(keys: set<Cell>, t0: Trace, t: Trace)
  {
    t0.clock <= t.clock && forall x {:trigger Stays(t0, t, x)} :: x in keys ==> Stays(t0, t, x)
  }

  /** Between two states the shown cells grew from `base` to `shown`, the record of the cells
      shown before was kept, and every newly shown cell was opened since and is traced to `roots`. */
  predicate Grew(base: set<Cell>, t0: Trace, shown: set<Cell>, t: Trace, roots: set<Cell>, zeros: set<Cell>)
  {
    base <= shown && Kept(base, t0, t) && OpenedSince(shown - base, t, t0.clock) && Traced(shown - base, roots, zeros, t)
  }

  /** If `r` is newly shown, it was opened first, from `origin`. */
  predicate OpenedFirst(r: Cell, origin: Cell, added: set<Cell>, t: Trace, lo: nat)
  {
    r in added ==>
      r in t.from && t.from[r] == origin && r in t.at && t.at[r] == lo && OpenedSince(added - {r}, t, lo + 1)
  }

  /** A path of 0 cells, each step moving into the 3×3 block of the cell before. */
  predicate Chain(path: seq<Cell>, zeros: set<Cell>)
  {
    forall k :: 0 <= k < |path| - 1 ==>
      path[k] in zeros && InBlock(path[k + 1].0, path[k + 1].1, path[k].0, path[k].1)
  }

  /** Nothing newly shown: any roots and any 0 cells will do. */
  lemma GrewNothing(base: set<Cell>, t0: Trace, t: Trace, roots: set<Cell>, zeros: set<Cell>)
    requires Kept(base, t0, t)
    ensures Grew(base, t0, base, t, roots, zeros)
  {
    assert base - base == {};
  }

  /** A trace to some roots is a trace to any larger set of roots. */
  lemma GrewWiden(base: set<Cell>, t0: Trace, shown: set<Cell>, t: Trace, roots: set<Cell>, more: set<Cell>, zeros: set<Cell>)
    requires Grew(base, t0, shown, t, roots, zeros) && roots <= more
    ensures Grew(base, t0, shown, t, more, zeros)
  {
    forall x | x in shown - base && x !in more
      ensures Linked(shown - base, more, zeros, t, x)
    {
      assert Linked(shown - base, roots, zeros, t, x);
    }
  }

  /** Opening one cell that is itself a root. */
  lemma GrewByRoot(base: set<Cell>, t0: Trace, x: Cell, origin: Cell, roots: set<Cell>, zeros: set<Cell>)
    requires x in roots
    ensures Grew(base, t0, base + {x}, if x in base then t0 else Opened(t0, x, origin), roots, zeros)
  {
    var t := if x in base then t0 else Opened(t0, x, origin);
    forall y | y in base
      ensures Stays(t0, t, y)
    {
    }
    forall y | y in base + {x} - base
      ensures OpenedIn(t, t0.clock, y)
    {
    }
  }

  /** A fill step: cell r is shown (and recorded as opened from `origin` if it is new), then the
      fill of its block grows the shown cells further. r was opened first. */
  lemma {:induction false} OpenThenFill(base: set<Cell>, t0: Trace, r: Cell, origin: Cell, mid: set<Cell>, t1: Trace,
                                        shown: set<Cell>, t: Trace, roots: set<Cell>, zeros: set<Cell>)
    requires r in roots && mid == base + {r} && t1 == (if r in base then t0 else Opened(t0, r, origin))
    requires Grew(mid, t1, shown, t, roots, zeros)
    ensures Grew(base, t0, shown, t, roots, zeros)
    ensures OpenedFirst(r, origin, shown - base, t, t0.clock)
  {
    GrewByRoot(base, t0, r, origin, roots, zeros);
    GrewJoin(base, t0, mid, t1, shown, t, roots, zeros);
    if r !in base {
      assert Stays(t1, t, r);
      forall x | x in shown - base - {r}
        ensures OpenedIn(t, t0.clock + 1, x)
      {
        assert x in shown - mid && OpenedIn(t, t1.clock, x);
      }
    }
  }

  /** Showing the safe cell r and then only safe cells shows only safe cells. */
  lemma SafeAfterOpen(base: set<Cell>, mid: set<Cell>, shown: set<Cell>, r: Cell, mines: set<Cell>)
    requires mid == base + {r} && mid <= shown && r !in mines && (shown - mid) !! mines
    ensures (shown - base) !! mines
  {
  }

  /** Two steps that each show only safe cells show only safe cells. */
  lemma SafeJoin(b0: set<Cell>, b1: set<Cell>, b2: set<Cell>, mines: set<Cell>)
    requires b0 <= b1 <= b2 && (b1 - b0) !! mines && (b2 - b1) !! mines
    ensures b0 <= b2 && (b2 - b0) !! mines
  {
  }

  /** Two growths in a row make one: the first's record survives the second. */
  lemma {:induction false} GrewJoin(b0: set<Cell>, t0: Trace, b1: set<Cell>, t1: Trace, b2: set<Cell>, t2: Trace,
                                    roots: set<Cell>, zeros: set<Cell>)
    requires Grew(b0, t0, b1, t1, roots, zeros) && Grew(b1, t1, b2, t2, roots, zeros)
    ensures Grew(b0, t0, b2, t2, roots, zeros)
  {
    forall x | x in b0
      ensures Stays(t0, t2, x)
    {
      assert Stays(t0, t1, x) && Stays(t1, t2, x);
    }
    forall x | x in b2 - b0
      ensures OpenedIn(t2, t0.clock, x)
    {
      if x in b1 {
        assert OpenedIn(t1, t0.clock, x) && Stays(t1, t2, x);
      } else {
        assert OpenedIn(t2, t1.clock, x);
      }
    }
    forall x | x in b2 - b0 && x !in roots
      ensures Linked(b2 - b0, roots, zeros, t2, x)
    {
      if x in b1 {
        assert Linked(b1 - b0, roots, zeros, t1, x) && Stays(t1, t2, x);
        var p := t1.from[x];
        if p !in roots {
          assert p in b1 - b0 && Stays(t1, t2, p);
        }
      } else {
        assert Linked(b2 - b1, roots, zeros, t2, x);
        var p := t2.from[x];
        if p !in roots {
          assert p in b2 - b1;
        }
      }
    }
  }

  /** A sequence of presses followed by one more: the first traced its new cells to the shown
      cells among `pressed`, the last to its own roots `r`, shown if it showed anything. Together
      they are traced to the shown cells among `more`. The 0 cells may change only over a first
      stretch that showed nothing. */
  lemma {:induction false} GrewPress(b0: set<Cell>, t0: Trace, b1: set<Cell>, t1: Trace, b2: set<Cell>, t2: Trace,
                                     pressed: set<Cell>, r: set<Cell>, more: set<Cell>, z0: set<Cell>, z: set<Cell>)
    requires Grew(b0, t0, b1, t1, pressed * b1, z0) && (z0 == z || b1 == b0)
    requires Grew(b1, t1, b2, t2, r, z) && (b2 == b1 || r <= b2)
    requires pressed <= more && r <= more
    ensures Grew(b0, t0, b2, t2, more * b2, z)
  {
    if b1 == b0 {
      GrewNothing(b0, t0, t1, more * b2, z);
    } else {
      GrewWiden(b0, t0, b1, t1, pressed * b1, more * b2, z);
    }
    if b2 == b1 {
      GrewNothing(b1, t1, t2, more * b2, z);
    } else {
      GrewWiden(b1, t1, b2, t2, r, more * b2, z);
    }
    GrewJoin(b0, t0, b1, t1, b2, t2, more * b2, z);
  }

  /** The fill started from cell r, which was opened from `origin`, a 0 cell among the roots:
      r need not be a root any more. When r was shown before and is not a root, no newly shown
      cell lies in its block. */
  lemma {:induction false} GrewReroot(base: set<Cell>, t0: Trace, shown: set<Cell>, t: Trace, roots: set<Cell>,
                                      r: Cell, origin: Cell, zeros: set<Cell>)
    requires Grew(base, t0, shown, t, roots + {r}, zeros)
    requires OpenedFirst(r, origin, shown - base, t, t0.clock)
    requires origin in roots && origin in zeros && InBlock(r.0, r.1, origin.0, origin.1)
    requires r !in shown - base && r !in roots && r in zeros ==>
               forall x :: x in shown - base ==> !InBlock(x.0, x.1, r.0, r.1)
    ensures Grew(base, t0, shown, t, roots, zeros)
  {
    forall x | x in shown - base && x !in roots
      ensures Linked(shown - base, roots, zeros, t, x)
    {
      if x != r {
        assert x !in roots + {r} && Linked(shown - base, roots + {r}, zeros, t, x);
        if t.from[x] == r && r in shown - base {
          assert OpenedIn(t, t0.clock + 1, x);
        }
      }
    }
  }

  /** Following the record back from a newly shown cell ends at a root: the cell is reached
      from that root through a chain of 0 cells. */
  lemma {:induction false} ChainFromRoot(added: set<Cell>, roots: set<Cell>, zeros: set<Cell>, t: Trace, x: Cell)
    returns (path: seq<Cell>)
    requires Traced(added, roots, zeros, t) && (x in added || x in roots)
    ensures |path| > 0 && path[0] in roots && path[|path| - 1] == x && Chain(path, zeros)
    ensures forall k :: 0 < k < |path| ==> path[k] in added
    decreases if x in roots || x !in t.at then 0 else t.at[x] + 1
  {
    if x in roots {
      path := [x];
    } else {
      assert Linked(added, roots, zeros, t, x);
      var p := t.from[x];
      var before := ChainFromRoot(added, roots, zeros, t, p);
      path := before + [x];
      forall k | 0 <= k < |path| - 1
        ensures path[k] in zeros && InBlock(path[k + 1].0, path[k + 1].1, path[k].0, path[k].1)
      {
        if k < |before| - 1 {
          assert path[k] == before[k] && path[k + 1] == before[k + 1];
        } else {
          assert path[k] == p && path[k + 1] == x;
        }
      }
    }
  }
}

=== FILE: minesweeper.dfy ===
/** The game state of one Minesweeper session: the player's grid, the hidden board,
    the flood-fill marks, the flag budget and the three control flags of the frame loop. */
module MinesweeperGame {
  import opened MineRules
  import opened FillTrace

  /** A mouse press already converted to grid coordinates; button 1 is left, 3 is right. */
  datatype Event = MouseDown(button: int, row: int, column: int)
  {
    /** The pressed grid position. */
    function Target(): (c: Cell)
      ensures c.0 == row && c.1 == column
    {
      (row, column)
    }
  }

  /** The cells pressed with `button` among the first n presses of `events`. */
  function Pressed(events: seq<Event>, n: nat, button: int): (s: set<Cell>)
    requires n <= |events|
    ensures forall k :: 0 <= k < n && events[k].button == button ==> events[k].Target() in s
  {
    set k | 0 <= k < n && events[k].button == button :: events[k].Target()
  }

  /** One more press adds its cell to the cells pressed with `button` exactly when it is such a press. */
  lemma PressedStep(events: seq<Event>, n: nat, button: int)
    requires n < |events|
    ensures Pressed(events, n + 1, button) == Pressed(events, n, button) + (if events[n].button == button then {events[n].Target()} else {})
  {
    if events[n].button == button {
      assert events[n].Target() in Pressed(events, n + 1, button);
    }
  }

  /** Press m of `events` is a left press on a grid cell that carried no flag in `start` and that
      no earlier press right-clicked, so the cell under it is still covered when it is handled. */
  predicate OpensCovered(events: seq<Event>, m: nat, rows: int, cols: int, start: set<Cell>)
    requires m < |events|
  {
    events[m].button == 1 && InBounds(events[m].row, events[m].column, rows, cols) &&
    events[m].Target() !in start && events[m].Target() !in Pressed(events, m, 3)
  }

  /** Every such press among the first n has its cell in `shown`. */
  predicate OpenedUpTo(events: seq<Event>, n: nat, rows: int, cols: int, start: set<Cell>, shown: set<Cell>)
    requires n <= |events|
  {
    forall m :: 0 <= m < n && OpensCovered(events, m, rows, cols, start) ==> events[m].Target() in shown
  }

  /** Handling press n keeps every earlier press's cell shown and adds its own. */
  lemma OpenedStep(events: seq<Event>, n: nat, rows: int, cols: int, start: set<Cell>, shown0: set<Cell>, shown1: set<Cell>)
    requires n < |events| && OpenedUpTo(events, n, rows, cols, start, shown0) && shown0 <= shown1
    requires OpensCovered(events, n, rows, cols, start) ==> events[n].Target() in shown1
    ensures OpenedUpTo(events, n + 1, rows, cols, start, shown1)
  {
    forall m | 0 <= m < n + 1 && OpensCovered(events, m, rows, cols, start)
      ensures events[m].Target() in shown1
    {
      if m < n {
        assert events[m].Target() in shown0;
      }
    }
  }

  /** Flag bookkeeping over one press: the cells not right-pressed so far carry a flag exactly
      when they did at the start and are still hidden. */
  lemma FlagsAfterPress(start: set<Cell>, pressed: set<Cell>, flags0: set<Cell>, shown0: set<Cell>,
                        flags1: set<Cell>, shown1: set<Cell>, target: Cell, right: bool, pressed1: set<Cell>)
    requires flags0 - pressed == start - pressed - shown0 && shown0 <= shown1
    requires pressed1 == pressed + if right then {target} else {}
    requires right ==> flags1 - {target} == flags0 - {target} && shown1 == shown0
    requires !right ==> flags1 == flags0 - shown1
    ensures flags1 - pressed1 == start - pressed1 - shown1
  {
    var now := pressed1;
    forall x | x in flags1 - now
      ensures x in start - now - shown1
    {
      assert x !in pressed;
      if right {
        assert x != target && x in flags1 - {target};
      }
      assert x in flags0 - pressed;
    }
    forall x | x in start - now - shown1
      ensures x in flags1 - now
    {
      assert x !in pressed && x !in shown0;
      assert x in start - pressed - shown0;
      assert x in flags0;
      if right {
        assert x != target && x in flags0 - {target};
      }
    }
  }

  /** What the frame loop knows after one more press, from what it knew before the press and what
      handling the press did: the opened presses, the growth of the shown cells from the frame's
      start and the flags all extend to press n. */
  lemma {:induction false} PressExtends(events: seq<Event>, n: nat, rows: int, cols: int, start: set<Cell>,
                                        base: set<Cell>, t0: Trace, shown0: set<Cell>, t1: Trace, flags0: set<Cell>, z0: set<Cell>,
                                        shown1: set<Cell>, t2: Trace, flags1: set<Cell>, z: set<Cell>)
    requires n < |events|
    requires OpenedUpTo(events, n, rows, cols, start, shown0)
    requires Grew(base, t0, shown0, t1, Pressed(events, n, 1) * shown0, z0) && (z0 == z || shown0 == base)
    requires flags0 - Pressed(events, n, 3) == start - Pressed(events, n, 3) - shown0
    requires Grew(shown0, t1, shown1, t2, if events[n].button == 1 then {events[n].Target()} else {}, z)
    requires shown1 == shown0 || (events[n].button == 1 && events[n].Target() in shown1)
    requires OpensCovered(events, n, rows, cols, start) ==> events[n].Target() in shown1
    requires events[n].button == 3 ==> flags1 - {events[n].Target()} == flags0 - {events[n].Target()} && shown1 == shown0
    requires events[n].button != 3 ==> flags1 == flags0 - shown1
    ensures OpenedUpTo(events, n + 1, rows, cols, start, shown1)
    ensures Grew(base, t0, shown1, t2, Pressed(events, n + 1, 1) * shown1, z)
    ensures flags1 - Pressed(events, n + 1, 3) == start - Pressed(events, n + 1, 3) - shown1
  {
    PressedStep(events, n, 3);
    PressedStep(events, n, 1);
    FlagsAfterPress(start, Pressed(events, n, 3), flags0, shown0, flags1, shown1,
                    events[n].Target(), events[n].button == 3, Pressed(events, n + 1, 3));
    OpenedStep(events, n, rows, cols, start, shown0, shown1);
    GrewPress(base, t0, shown0, t1, shown1, t2, Pressed(events, n, 1),
              if events[n].button == 1 then {events[n].Target()} else {}, Pressed(events, n + 1, 1), z0, z);
  }

  /** The board `mines` of a rows × cols grid was built by the left press `e`: the mines were
      placed from the draws, the first `used` of them taken, away from the pressed cell's block. */
  predicate BuiltBy(e: Event, draws: seq<Cell>, used: nat, mines: set<Cell>, rows: int, cols: int)
  {
    e.button == 1 && InBounds(e.row, e.column, rows, cols) &&
    SafeZone(mines, e.row, e.column) &&
    SampledUntil(mines, draws, used, e.row, e.column, MineTarget(rows, cols)) &&
    |mines| <= MineTarget(rows, cols) &&
    (|mines| < MineTarget(rows, cols) ==> used == |draws|) &&
    (|DrawnOutside(draws, e.row, e.column)| >= MineTarget(rows, cols) ==> |mines| == MineTarget(rows, cols))
  }

  /** A bound on the added cells by the pressed cells that are shown is a bound by the pressed cells. */
  lemma WithinPressed(added: set<Cell>, pressed: set<Cell>, shown: set<Cell>, fed: set<Cell>)
    requires added <= pressed * shown + fed
    ensures added <= pressed + fed
  {
  }

  /** The part of the game state that a frame's presses are judged against. */
  datatype Snapshot = Snapshot(firstClick: bool, mines: set<Cell>, flags: set<Cell>, revealed: set<Cell>, trace: Trace)

  /** What the event loop knows after the first n presses of a frame that started in `s0` and has
      reached `s`: a triggered mine is under the last press, which was a left press; the board is
      built at most once, by the press `opener` from the first `used` draws, no earlier press
      having opened a covered cell, and otherwise stays;
      every opening press shows its cell; every newly shown cell is a left-pressed cell or reached
      from one through 0 cells (`zeros`); and the flags moved only by right presses and reveals. */
  ghost predicate Progress(events: seq<Event>, n: nat, draws: seq<Cell>, rows: int, cols: int, s0: Snapshot, s: Snapshot,
                           triggered: bool, opener: nat, used: nat, zeros: set<Cell>)
    requires n <= |events|
  {
    (triggered ==>
       0 < n && events[n - 1].button == 1 && events[n - 1].Target() in s.mines && events[n - 1].Target() in s.revealed) &&
    (s.firstClick ==> s0.firstClick) &&
    (s.firstClick == s0.firstClick ==> s.mines == s0.mines) &&
    (s0.firstClick && !s.firstClick ==>
       opener < n && BuiltBy(events[opener], draws, used, s.mines, rows, cols) &&
       forall m :: 0 <= m < opener ==> !OpensCovered(events, m, rows, cols, s0.flags)) &&
    OpenedUpTo(events, n, rows, cols, s0.flags, s.revealed) &&
    Grew(s0.revealed, s0.trace, s.revealed, s.trace, Pressed(events, n, 1) * s.revealed, zeros) &&
    s.flags - Pressed(events, n, 3) == s0.flags - Pressed(events, n, 3) - s.revealed
  }

  /** Before any press the loop knows everything it needs, provided no flag is on a shown cell. */
  lemma PressesStart(events: seq<Event>, draws: seq<Cell>, rows: int, cols: int, s0: Snapshot, zeros: set<Cell>)
    requires s0.flags !! s0.revealed
    ensures Progress(events, 0, draws, rows, cols, s0, s0, false, 0, 0, zeros)
  {
    GrewNothing(s0.revealed, s0.trace, s0.trace, Pressed(events, 0, 1) * s0.revealed, zeros);
  }

  class Minesweeper {
    const rows: nat
    const cols: nat
    /** What the player sees: UNTOUCHED, FLAG, or a value copied from the hidden grid. */
    const userGrid: array2<int>
    /** UNTOUCHED everywhere until the first click; then MINE or the number of adjacent mines. */
    const hiddenGrid: array2<int>
    /** Flood-fill marks: UNTOUCHED, or CLEAR once the fill has entered the cell. Never reset. */
    const clearedGrid: array2<int>
    /** Flags still available, kept as the exact fraction rows*cols/6 minus the flags planted. */
    var flagCount: real
    var firstClick: bool
    var mineTriggered: bool
    var matchingBoards: bool

    /** Abstract views of the grids, each tied to the arrays by a predicate below. */
    ghost var mines: set<Cell>
    ghost var flags: set<Cell>
    ghost var revealed: set<Cell>
    ghost var cleared: set<Cell>
    /** Where each cell the fills opened was opened from; see FillTrace. */
    ghost var trace: Trace

    ghost predicate Shape()
    {
      userGrid.Length0 == rows && userGrid.Length1 == cols &&
      hiddenGrid.Length0 == rows && hiddenGrid.Length1 == cols &&
      clearedGrid.Length0 == rows && clearedGrid.Length1 == cols &&
      userGrid != hiddenGrid && userGrid != clearedGrid && hiddenGrid != clearedGrid
    }

    /** `mines` is exactly the set of MINE cells of the hidden grid. */
    ghost predicate MinesTied()
      requires Shape()
      reads this`mines, hiddenGrid
    {
      (forall x {:trigger x in mines} :: x in mines ==> InBounds(x.0, x.1, rows, cols)) &&
      forall i, j {:trigger hiddenGrid[i, j]} :: InBounds(i, j, rows, cols) ==> (hiddenGrid[i, j] == MINE <==> (i, j) in mines)
    }

    /** `flags` is exactly the set of FLAG cells of the user grid. */
    ghost predicate FlagsTied()
      requires Shape()
      reads this`flags, userGrid
    {
      (forall x {:trigger x in flags} :: x in flags ==> InBounds(x.0, x.1, rows, cols)) &&
      forall i, j :: InBounds(i, j, rows, cols) ==> (userGrid[i, j] == FLAG <==> (i, j) in flags)
    }

    /** `revealed` is the set of cells the player sees a value in, and that value is the hidden one. */
    ghost predicate RevealedTied()
      requires Shape()
      reads this`revealed, userGrid, hiddenGrid
    {
      (forall x {:trigger x in revealed} :: x in revealed ==> InBounds(x.0, x.1, rows, cols)) &&
      forall i, j :: InBounds(i, j, rows, cols) ==>
        ((i, j) in revealed <==> userGrid[i, j] != UNTOUCHED && userGrid[i, j] != FLAG) &&
        ((i, j) in revealed ==> userGrid[i, j] == hiddenGrid[i, j])
    }

    /** `cleared` is the set of CLEAR marks of the cleared grid, whose other cells are UNTOUCHED. */
    ghost predicate ClearedTied()
      requires Shape()
      reads this`cleared, clearedGrid
    {
      (forall x {:trigger x in cleared} :: x in cleared ==> InBounds(x.0, x.1, rows, cols)) &&
      forall i, j :: InBounds(i, j, rows, cols) ==>
        (clearedGrid[i, j] == CLEAR <==> (i, j) in cleared) &&
        (clearedGrid[i, j] == CLEAR || clearedGrid[i, j] == UNTOUCHED)
    }

    /** Flag conservation: the budget plus the planted flags is always rows*cols/6. */
    ghost predicate Budget()
      reads this`flags, this`flagCount
    {
      flagCount + |flags| as real == InitialBudget(rows, cols) && flagCount > -1.0
    }

    /** Every non-mine hidden cell holds the number of mines among its neighbours. */
    ghost predicate Numbered()
      requires Shape()
      reads this`mines, hiddenGrid
    {
      forall i, j {:trigger Neighbours(i, j, rows, cols)} :: InBounds(i, j, rows, cols) && (i, j) !in mines ==>
        hiddenGrid[i, j] == |Neighbours(i, j, rows, cols) * mines|
    }

    ghost predicate HiddenRange()
      requires Shape()
      reads hiddenGrid
    {
      forall i, j :: InBounds(i, j, rows, cols) ==> MINE <= hiddenGrid[i, j] <= 8
    }

    ghost predicate AllUntouched()
      requires Shape()
      reads hiddenGrid
    {
      forall i, j :: InBounds(i, j, rows, cols) ==> hiddenGrid[i, j] == UNTOUCHED
    }

    /** Flood-fill closure: every revealed 0 cell outside `pending` has its whole block revealed. */
    ghost predicate ClosedExcept(pending: set<Cell>)
      requires Shape()
      reads this`revealed, hiddenGrid
    {
      forall a, b, i, j {:trigger InBlock(i, j, a, b)} ::
        ((a, b) in revealed && (a, b) !in pending && InBounds(a, b, rows, cols) && hiddenGrid[a, b] == CLEAR &&
         InBlock(i, j, a, b) && InBounds(i, j, rows, cols)) ==> (i, j) in revealed
    }

    /** The cells in the 3×3 block of some cell of `from` whose hidden value is 0: the only cells,
        besides the one it starts from, that the fill can reach from `from`. */
    ghost function FedBy(from: set<Cell>): set<Cell>
      requires Shape()
      reads hiddenGrid
    {
      set a, b, i, j | 0 <= a < rows && 0 <= b < cols && (a, b) in from && hiddenGrid[a, b] == CLEAR &&
                       a - 1 <= i <= a + 1 && b - 1 <= j <= b + 1 :: (i, j)
    }

    /** A block cell of a 0 cell of `from` is fed by `from`. */
    lemma FedByBlock(from: set<Cell>, a: int, b: int, i: int, j: int)
      requires Shape() && (a, b) in from && InBounds(a, b, rows, cols) && hiddenGrid[a, b] == CLEAR && InBlock(i, j, a, b)
      ensures (i, j) in FedBy(from)
    {
    }

    /** More revealed cells feed at least the same cells. */
    lemma FedByGrows(small: set<Cell>, large: set<Cell>)
      requires Shape() && small <= large
      ensures FedBy(small) <= FedBy(large)
    {
    }

    /** The current state, as the event loop judges it. */
    ghost function Now(): Snapshot
      reads this
    {
      Snapshot(firstClick, mines, flags, revealed, trace)
    }

    /** The in-grid cells whose hidden value is 0: the cells the fill spreads from. */
    ghost function Zeros(): (z: set<Cell>)
      requires Shape()
      reads hiddenGrid
    {
      set i, j | 0 <= i < rows && 0 <= j < cols && hiddenGrid[i, j] == CLEAR :: (i, j)
    }

    /** A revealed 0 cell that needs no exception from the closure has its whole block revealed. */
    lemma ClosedBlock(pending: set<Cell>, a: int, b: int)
      requires Shape() && ClosedExcept(pending)
      requires (a, b) in revealed && (a, b) !in pending && InBounds(a, b, rows, cols) && hiddenGrid[a, b] == CLEAR
      ensures Block(a, b, rows, cols) <= revealed
    {
      forall x | x in Block(a, b, rows, cols)
        ensures x in revealed
      {
        assert InBlock(x.0, x.1, a, b);
      }
    }

    /** A growth traced to shown roots stays within the roots and the blocks of shown 0 cells. */
    lemma GrewFeeds(base: set<Cell>, t0: Trace, t: Trace, roots: set<Cell>)
      requires Shape() && Grew(base, t0, revealed, t, roots, Zeros()) && roots <= revealed
      ensures revealed - base <= roots + FedBy(revealed)
    {
      forall x | x in revealed - base && x !in roots
        ensures x in FedBy(revealed)
      {
        assert Linked(revealed - base, roots, Zeros(), t, x);
        var p := t.from[x];
        FedByBlock(revealed, p.0, p.1, x.0, x.1);
      }
    }

    /** The hidden board is complete and the three grids agree with their abstract views. */
    ghost predicate Board()
      reads this`mines, this`flags, this`revealed, this`cleared, this`flagCount, userGrid, hiddenGrid, clearedGrid
    {
      Shape() && MinesTied() && Numbered() && HiddenRange() &&
      FlagsTied() && Budget() && RevealedTied() && ClearedTied()
    }

    /** The part of the invariant that right clicks leave alone: the hidden board, the fill marks
        and the two phases of a session (before the first click, and after it). */
    ghost predicate Phase()
      requires Shape()
      reads this`mines, this`revealed, this`cleared, this`firstClick, this`mineTriggered, hiddenGrid, clearedGrid
    {
      MinesTied() && ClearedTied() && cleared <= revealed &&
      (firstClick ==> revealed == {} && cleared == {} && mines == {} && AllUntouched() && !mineTriggered) &&
      (!firstClick ==> Numbered() && HiddenRange() && ClosedExcept({})) &&
      (!mineTriggered ==> revealed !! mines)
    }

    ghost predicate Valid()
      reads this, userGrid, hiddenGrid, clearedGrid
    {
      Shape() && FlagsTied() && RevealedTied() && Budget() && Phase()
    }

    /** The win test: every cell whose hidden value is not MINE shows that value to the player. */
    ghost predicate Won()
      requires Shape()
      reads userGrid, hiddenGrid
    {
      forall i, j :: InBounds(i, j, rows, cols) && hiddenGrid[i, j] != MINE ==> userGrid[i, j] == hiddenGrid[i, j]
    }

    constructor (rows: nat, cols: nat)
      ensures Valid() && this.rows == rows && this.cols == cols
      ensures fresh(userGrid) && fresh(hiddenGrid) && fresh(clearedGrid)
      ensures forall i, j :: InBounds(i, j, rows, cols) ==> userGrid[i, j] == UNTOUCHED
      ensures flagCount == InitialBudget(rows, cols) && flags == {}
      ensures firstClick && !mineTriggered && !matchingBoards
    {
      this.rows := rows;
      this.cols := cols;
      userGrid := new int[rows, cols]((i, j) => UNTOUCHED);
      hiddenGrid := new int[rows, cols]((i, j) => UNTOUCHED);
      clearedGrid := new int[rows, cols]((i, j) => UNTOUCHED);
      flagCount := InitialBudget(rows, cols);
      firstClick, mineTriggered, matchingBoards := true, false, false;
      mines, flags, revealed, cleared := {}, {}, {}, {};
    }

    /** The number of MINE cells among the in-bounds neighbours of a cell, the cell itself excluded. */
    method CountAdjacentMines(givenRow: int, givenColumn: int) returns (adjacentMines: nat)
      requires Shape() && MinesTied()
      ensures adjacentMines == |Neighbours(givenRow, givenColumn, rows, cols) * mines|
      ensures adjacentMines <= 8
    {
      adjacentMines := 0;
      ScanBounds(givenRow, givenColumn, rows, cols, mines);
      for ii := givenRow - 1 to givenRow + 2
        invariant adjacentMines == |MinesBefore(givenRow, givenColumn, rows, cols, mines, ii, givenColumn - 1)|
      {
        for jj := givenColumn - 1 to givenColumn + 2
          invariant adjacentMines == |MinesBefore(givenRow, givenColumn, rows, cols, mines, ii, jj)|
        {
          ScanStep(givenRow, givenColumn, rows, cols, mines, ii, jj);
          if 0 <= ii < rows && 0 <= jj < cols {
            if hiddenGrid[ii, jj] == MINE {
              if ii == givenRow && jj == givenColumn {
                adjacentMines := adjacentMines + 0;
              } else {
                adjacentMines := adjacentMines + 1;
              }
            }
          }
        }
        ScanNextRow(givenRow, givenColumn, rows, cols, mines, ii);
      }
      SubsetCardinality(Neighbours(givenRow, givenColumn, rows, cols) * mines, Neighbours(givenRow, givenColumn, rows, cols));
    }

    /** The win scan: true exactly when the board is won. */
    method CheckVictory() returns (temp: bool)
      requires Shape()
      ensures temp <==> Won()
    {
      temp := true;
      label scan: for r := 0 to rows
        invariant temp
        invariant forall i, j :: 0 <= i < r && 0 <= j < cols && hiddenGrid[i, j] != MINE ==> userGrid[i, j] == hiddenGrid[i, j]
      {
        for c := 0 to cols
          invariant temp
          invariant forall j :: 0 <= j < c && hiddenGrid[r, j] != MINE ==> userGrid[r, j] == hiddenGrid[r, j]
        {
          if hiddenGrid[r, c] != MINE {
            temp := userGrid[r, c] == hiddenGrid[r, c];
            if !temp {
              break scan;
            }
          }
        }
      }
    }

    /** Shows the hidden value of one cell, refunding the flag it may carry. A cell shown for the
        first time is recorded in the trace as opened from `origin`. */
    method RevealCell(r: int, c: int, ghost origin: Cell)
      requires Shape() && FlagsTied() && Budget() && RevealedTied() && HiddenRange() && InBounds(r, c, rows, cols)
      modifies userGrid, this`flagCount, this`flags, this`revealed, this`trace
      ensures FlagsTied() && Budget() && RevealedTied()
      ensures revealed == old(revealed) + {(r, c)}
      ensures userGrid[r, c] == hiddenGrid[r, c]
      ensures forall a, b :: InBounds(a, b, rows, cols) && (a, b) != (r, c) ==> userGrid[a, b] == old(userGrid[a, b])
      ensures flagCount == old(flagCount) + (if old(userGrid[r, c]) == FLAG then 1.0 else 0.0)
      ensures trace == if (r, c) in old(revealed) then old(trace) else Opened(old(trace), (r, c), origin)
    {
      if (r, c) !in revealed {
        trace := Opened(trace, (r, c), origin);
      }
      if userGrid[r, c] == FLAG {
        flagCount := flagCount + 1.0;
        flags := flags - {(r, c)};
      }
      userGrid[r, c] := hiddenGrid[r, c];
      revealed := revealed + {(r, c)};
    }

    /** The recursive flood fill. It shows the hidden value of (rIndex, cIndex) and, when that value
        is 0, visits every cell of its 3×3 block, itself included. `pending` holds the 0 cells further
        up the recursion, whose blocks are still being visited, and `origin` the 0 cell whose block
        loop entered (rIndex, cIndex). Every cell it shows for the first time is traced back to
        (rIndex, cIndex) or to a pending cell. */
    method ClearSurrounding(rIndex: int, cIndex: int, ghost pending: set<Cell>, ghost origin: Cell)
      requires Board()
      requires InBounds(rIndex, cIndex, rows, cols) && (rIndex, cIndex) !in mines
      requires cleared - {(rIndex, cIndex)} <= revealed && pending <= revealed
      requires ClosedExcept(pending + {(rIndex, cIndex)})
      modifies userGrid, clearedGrid, this`flagCount, this`flags, this`revealed, this`cleared, this`trace
      ensures Board()
      ensures (rIndex, cIndex) in revealed && old(revealed) <= revealed && cleared <= revealed
      ensures old(cleared) <= cleared
      ensures hiddenGrid[rIndex, cIndex] == CLEAR ==> Block(rIndex, cIndex, rows, cols) <= revealed
      ensures hiddenGrid[rIndex, cIndex] != CLEAR ==> revealed == old(revealed) + {(rIndex, cIndex)} && cleared == old(cleared)
      ensures ClosedExcept(pending)
      ensures (revealed - old(revealed)) !! mines
      ensures revealed - old(revealed) <= {(rIndex, cIndex)} + FedBy(revealed)
      ensures Grew(old(revealed), old(trace), revealed, trace, pending + {(rIndex, cIndex)}, Zeros())
      ensures OpenedFirst((rIndex, cIndex), origin, revealed - old(revealed), trace, old(trace).clock)
      ensures forall i, j :: InBounds(i, j, rows, cols) && (i, j) !in revealed ==> userGrid[i, j] == old(userGrid[i, j])
      decreases AllCells(rows, cols) - cleared, 3
    {
      RevealCell(rIndex, cIndex, origin);
      ghost var shown, t := revealed, trace;
      if hiddenGrid[rIndex, cIndex] == CLEAR {
        FillBlock(rIndex, cIndex, pending + {(rIndex, cIndex)});
        SafeAfterOpen(old(revealed), shown, revealed, (rIndex, cIndex), mines);
        BlockCloses(pending, rIndex, cIndex);
      } else {
        NonZeroCloses(pending, rIndex, cIndex);
        GrewNothing(shown, t, t, pending + {(rIndex, cIndex)}, Zeros());
      }
      OpenThenFill(old(revealed), old(trace), (rIndex, cIndex), origin, shown, t, revealed, trace, pending + {(rIndex, cIndex)}, Zeros());
      GrewFeeds(old(revealed), old(trace), trace, pending + {(rIndex, cIndex)});
    }

    /** Once the whole block of the 0 cell (r, c) is revealed, (r, c) no longer needs an exception. */
    lemma BlockCloses(pending: set<Cell>, r: int, c: int)
      requires Shape() && ClosedExcept(pending + {(r, c)}) && Block(r, c, rows, cols) <= revealed
      ensures ClosedExcept(pending)
    {
    }

    /** A revealed cell whose hidden value is not 0 needs no exception. */
    lemma NonZeroCloses(pending: set<Cell>, r: int, c: int)
      requires Shape() && ClosedExcept(pending + {(r, c)}) && InBounds(r, c, rows, cols) && hiddenGrid[r, c] != CLEAR
      ensures ClosedExcept(pending)
    {
    }

    /** The fill's double loop over the 3×3 block of the revealed 0 cell (rIndex, cIndex). */
    method FillBlock(rIndex: int, cIndex: int, ghost inner: set<Cell>)
      requires Board()
      requires InBounds(rIndex, cIndex, rows, cols) && (rIndex, cIndex) !in mines && hiddenGrid[rIndex, cIndex] == CLEAR
      requires cleared <= revealed && (rIndex, cIndex) in inner && inner <= revealed
      requires ClosedExcept(inner)
      modifies userGrid, clearedGrid, this`flagCount, this`flags, this`revealed, this`cleared, this`trace
      ensures Board()
      ensures Block(rIndex, cIndex, rows, cols) <= revealed
      ensures old(revealed) <= revealed && cleared <= revealed && old(cleared) <= cleared
      ensures ClosedExcept(inner)
      ensures (revealed - old(revealed)) !! mines
      ensures revealed - old(revealed) <= FedBy(revealed)
      ensures Grew(old(revealed), old(trace), revealed, trace, inner, Zeros())
      ensures forall a, b :: InBounds(a, b, rows, cols) && (a, b) !in revealed ==> userGrid[a, b] == old(userGrid[a, b])
      decreases AllCells(rows, cols) - cleared, 2
    {
      BlockBounds(rIndex, cIndex, rows, cols);
      GrewNothing(revealed, trace, trace, inner, Zeros());
      for i := rIndex - 1 to rIndex + 2
        invariant Board()
        invariant old(revealed) <= revealed && cleared <= revealed && old(cleared) <= cleared
        invariant ClosedExcept(inner)
        invariant (revealed - old(revealed)) !! mines
        invariant forall a, b :: InBounds(a, b, rows, cols) && (a, b) !in revealed ==> userGrid[a, b] == old(userGrid[a, b])
        invariant BlockBefore(rIndex, cIndex, rows, cols, i, cIndex - 1) <= revealed
        invariant Grew(old(revealed), old(trace), revealed, trace, inner, Zeros())
      {
        ghost var before, t := revealed, trace;
        FillRow(i, rIndex, cIndex, inner);
        GrewJoin(old(revealed), old(trace), before, t, revealed, trace, inner, Zeros());
        SafeJoin(old(revealed), before, revealed, mines);
        BlockNextRow(rIndex, cIndex, rows, cols, i);
      }
      GrewFeeds(old(revealed), old(trace), trace, inner);
    }

    /** The inner loop of the fill: row i of the 3×3 block of the revealed 0 cell (rIndex, cIndex). */
    method FillRow(i: int, rIndex: int, cIndex: int, ghost inner: set<Cell>)
      requires Board()
      requires InBounds(rIndex, cIndex, rows, cols) && (rIndex, cIndex) !in mines && hiddenGrid[rIndex, cIndex] == CLEAR
      requires cleared <= revealed && rIndex - 1 <= i <= rIndex + 1 && (rIndex, cIndex) in inner && inner <= revealed
      requires ClosedExcept(inner)
      requires BlockBefore(rIndex, cIndex, rows, cols, i, cIndex - 1) <= revealed
      modifies userGrid, clearedGrid, this`flagCount, this`flags, this`revealed, this`cleared, this`trace
      ensures Board()
      ensures BlockBefore(rIndex, cIndex, rows, cols, i, cIndex + 2) <= revealed
      ensures old(revealed) <= revealed && cleared <= revealed && old(cleared) <= cleared
      ensures ClosedExcept(inner)
      ensures (revealed - old(revealed)) !! mines
      ensures revealed - old(revealed) <= FedBy(revealed)
      ensures Grew(old(revealed), old(trace), revealed, trace, inner, Zeros())
      ensures forall a, b :: InBounds(a, b, rows, cols) && (a, b) !in revealed ==> userGrid[a, b] == old(userGrid[a, b])
      decreases AllCells(rows, cols) - cleared, 1
    {
      GrewNothing(revealed, trace, trace, inner, Zeros());
      for j := cIndex - 1 to cIndex + 2
        invariant Board()
        invariant old(revealed) <= revealed && cleared <= revealed && old(cleared) <= cleared
        invariant ClosedExcept(inner)
        invariant (revealed - old(revealed)) !! mines
        invariant forall a, b :: InBounds(a, b, rows, cols) && (a, b) !in revealed ==> userGrid[a, b] == old(userGrid[a, b])
        invariant BlockBefore(rIndex, cIndex, rows, cols, i, j) <= revealed
        invariant Grew(old(revealed), old(trace), revealed, trace, inner, Zeros())
      {
        ghost var before, t := revealed, trace;
        VisitCell(i, j, rIndex, cIndex, inner);
        GrewJoin(old(revealed), old(trace), before, t, revealed, trace, inner, Zeros());
        SafeJoin(old(revealed), before, revealed, mines);
        BlockStep(rIndex, cIndex, rows, cols, i, j);
      }
      GrewFeeds(old(revealed), old(trace), trace, inner);
    }

    /** Marks an unmarked in-grid cell CLEAR in the cleared grid; nothing else changes. */
    method MarkCleared(i: int, j: int)
      requires Board() && InBounds(i, j, rows, cols) && clearedGrid[i, j] == UNTOUCHED
      modifies clearedGrid, this`cleared
      ensures Board() && cleared == old(cleared) + {(i, j)} && (i, j) !in old(cleared)
      ensures clearedGrid[i, j] == CLEAR
    {
      clearedGrid[i, j] := CLEAR;
      cleared := cleared + {(i, j)};
    }

    /** One pass of the fill's double loop: a block cell of the 0 cell (rIndex, cIndex) that is in
        bounds and not yet marked is marked in the cleared grid and filled from. */
    method VisitCell(i: int, j: int, rIndex: int, cIndex: int, ghost inner: set<Cell>)
      requires Board()
      requires InBounds(rIndex, cIndex, rows, cols) && (rIndex, cIndex) !in mines && hiddenGrid[rIndex, cIndex] == CLEAR
      requires InBlock(i, j, rIndex, cIndex) && (rIndex, cIndex) in inner && inner <= revealed
      requires cleared <= revealed
      requires ClosedExcept(inner)
      modifies userGrid, clearedGrid, this`flagCount, this`flags, this`revealed, this`cleared, this`trace
      ensures Board()
      ensures InBounds(i, j, rows, cols) ==> (i, j) in revealed
      ensures old(revealed) <= revealed && cleared <= revealed && old(cleared) <= cleared
      ensures ClosedExcept(inner)
      ensures (revealed - old(revealed)) !! mines
      ensures revealed - old(revealed) <= FedBy(revealed)
      ensures Grew(old(revealed), old(trace), revealed, trace, inner, Zeros())
      ensures forall a, b :: InBounds(a, b, rows, cols) && (a, b) !in revealed ==> userGrid[a, b] == old(userGrid[a, b])
      ensures !(InBounds(i, j, rows, cols) && old(clearedGrid[i, j]) == UNTOUCHED) ==> unchanged(this, userGrid, clearedGrid)
      decreases AllCells(rows, cols) - cleared, 0
    {
      if 0 <= i < rows && 0 <= j < cols && clearedGrid[i, j] == UNTOUCHED {
        MarkCleared(i, j);
        NoMineNextToZero(rIndex, cIndex, rows, cols, mines, i, j);
        if (i, j) in revealed && (i, j) !in inner && hiddenGrid[i, j] == CLEAR {
          ClosedBlock(inner, i, j);
        }
        ClearSurrounding(i, j, inner, (rIndex, cIndex));
        VisitTraced(old(revealed), old(trace), i, j, rIndex, cIndex, inner);
      } else {
        GrewNothing(revealed, trace, trace, inner, Zeros());
      }
    }

    /** The fill entered block cell (i, j) of the 0 cell (rIndex, cIndex) and filled from it: what
        it showed is traced back to the cells of `inner`, without (i, j) as a root of its own. */
    lemma VisitTraced(base: set<Cell>, t0: Trace, i: int, j: int, rIndex: int, cIndex: int, inner: set<Cell>)
      requires Shape() && RevealedTied() && (i, j) in revealed && inner <= base
      requires InBounds(rIndex, cIndex, rows, cols) && hiddenGrid[rIndex, cIndex] == CLEAR
      requires InBlock(i, j, rIndex, cIndex) && (rIndex, cIndex) in inner
      requires Grew(base, t0, revealed, trace, inner + {(i, j)}, Zeros())
      requires OpenedFirst((i, j), (rIndex, cIndex), revealed - base, trace, t0.clock)
      requires (i, j) in base && (i, j) !in inner && hiddenGrid[i, j] == CLEAR ==> Block(i, j, rows, cols) <= base
      ensures Grew(base, t0, revealed, trace, inner, Zeros())
      ensures revealed - base <= FedBy(revealed)
    {
      if (i, j) in base && (i, j) !in inner && (i, j) in Zeros() {
        // A closed 0 cell's block was shown already, so its fill shows nothing new.
        forall x | x in revealed - base
          ensures !InBlock(x.0, x.1, i, j)
        {
          assert InBounds(x.0, x.1, rows, cols);
        }
      }
      GrewReroot(base, t0, revealed, trace, inner, (i, j), (rIndex, cIndex), Zeros());
      GrewFeeds(base, t0, trace, inner);
    }

    /** The state of rejection sampling after the first `used` draws: the mines are the distinct
        drawn cells outside the 3×3 block of the first click, and every other cell outside that
        block is still UNTOUCHED. */
    ghost predicate Sampled(draws: seq<Cell>, used: int, rowIndex: int, columnIndex: int)
      requires Shape()
      reads this`mines, hiddenGrid
    {
      0 <= used <= |draws| && MinesTied() && mines == DrawnOutside(draws[..used], rowIndex, columnIndex) &&
      forall a, b :: InBounds(a, b, rows, cols) && !InBlock(a, b, rowIndex, columnIndex) ==>
        hiddenGrid[a, b] == UNTOUCHED || hiddenGrid[a, b] == MINE
    }

    /** Rejection-sampling placement of rows*cols/6 mines, reading the random draws from `draws`.
        Placement stops early only if `draws` runs out. The mines are the distinct drawn cells
        outside the 3×3 block of the first click, and `used` is the shortest prefix of the draws
        that holds the mine target of them. */
    method PlaceMines(rowIndex: int, columnIndex: int, draws: seq<Cell>) returns (placed: nat, used: nat)
      requires Shape() && InBounds(rowIndex, columnIndex, rows, cols)
      requires forall d {:trigger d in draws} :: d in draws ==> InBounds(d.0, d.1, rows, cols)
      requires AllUntouched() && mines == {}
      modifies hiddenGrid, this`mines
      ensures MinesTied()
      ensures SafeZone(mines, rowIndex, columnIndex)
      ensures SampledUntil(mines, draws, used, rowIndex, columnIndex, MineTarget(rows, cols))
      ensures placed == |mines| <= MineTarget(rows, cols)
      ensures placed < MineTarget(rows, cols) ==> used == |draws|
      ensures |DrawnOutside(draws, rowIndex, columnIndex)| >= MineTarget(rows, cols) ==> placed == MineTarget(rows, cols)
    {
      var target := MineTarget(rows, cols);
      var i := 0;
      var exhausted := false;
      used := 0;
      assert draws[..0] == [];
      while i < target && !exhausted
        invariant Sampled(draws, used, rowIndex, columnIndex) && i == |mines| <= target
        invariant forall u :: 0 <= u < used ==> |DrawnOutside(draws[..u], rowIndex, columnIndex)| < target
        invariant exhausted ==> used == |draws|
        decreases target - i, if exhausted then 0 else 1
      {
        var mineCreated;
        mineCreated, used := PlaceOneMine(rowIndex, columnIndex, draws, used);
        if mineCreated {
          i := i + 1;
        } else {
          exhausted := true;
        }
      }
      placed := i;
      assert draws[..|draws|] == draws;
    }

    /** The `while not mine_created` loop: draws from position `start` on until a new mine lands
        outside the 3×3 block of the first click, or the draws run out. */
    method PlaceOneMine(rowIndex: int, columnIndex: int, draws: seq<Cell>, start: nat) returns (mineCreated: bool, used: nat)
      requires Shape() && forall d {:trigger d in draws} :: d in draws ==> InBounds(d.0, d.1, rows, cols)
      requires Sampled(draws, start, rowIndex, columnIndex)
      modifies hiddenGrid, this`mines
      ensures Sampled(draws, used, rowIndex, columnIndex) && start <= used
      ensures |mines| == old(|mines|) + (if mineCreated then 1 else 0)
      ensures forall u :: start <= u < used ==> |DrawnOutside(draws[..u], rowIndex, columnIndex)| == old(|mines|)
      ensures !mineCreated ==> used == |draws|
    {
      mineCreated := false;
      used := start;
      while !mineCreated && used < |draws|
        invariant Sampled(draws, used, rowIndex, columnIndex) && start <= used
        invariant |mines| == old(|mines|) + (if mineCreated then 1 else 0)
        invariant forall u :: start <= u < used ==> |DrawnOutside(draws[..u], rowIndex, columnIndex)| == old(|mines|)
        decreases |draws| - used
      {
        DrawnOutsideStep(draws, used, rowIndex, columnIndex);
        assert draws[used] in draws;
        var (x, y) := draws[used];
        used := used + 1;
        mineCreated := DrawOnce(x, y, rowIndex, columnIndex);
      }
    }

    /** One draw (x, y) of the rejection sampling: an UNTOUCHED cell becomes a mine, and a cell in
        the 3×3 block of the first click is then reset to CLEAR, so only a new mine outside that
        block counts. */
    method DrawOnce(x: int, y: int, rowIndex: int, columnIndex: int) returns (mineCreated: bool)
      requires Shape() && MinesTied() && InBounds(x, y, rows, cols)
      requires SafeZone(mines, rowIndex, columnIndex)
      requires forall a, b :: InBounds(a, b, rows, cols) && !InBlock(a, b, rowIndex, columnIndex) ==>
                 hiddenGrid[a, b] == UNTOUCHED || hiddenGrid[a, b] == MINE
      modifies hiddenGrid, this`mines
      ensures MinesTied()
      ensures forall a, b :: InBounds(a, b, rows, cols) && !InBlock(a, b, rowIndex, columnIndex) ==>
                hiddenGrid[a, b] == UNTOUCHED || hiddenGrid[a, b] == MINE
      ensures mines == old(mines) + (if InBlock(x, y, rowIndex, columnIndex) then {} else {(x, y)})
      ensures mineCreated <==> (x, y) !in old(mines) && !InBlock(x, y, rowIndex, columnIndex)
      ensures |mines| == |old(mines)| + (if mineCreated then 1 else 0)
    {
      mineCreated := false;
      if hiddenGrid[x, y] == UNTOUCHED {
        hiddenGrid[x, y] := MINE;
        mineCreated := true;
      }
      if InBlock(x, y, rowIndex, columnIndex) {
        hiddenGrid[x, y] := CLEAR;
        mineCreated := false;
      }
      if mineCreated {
        mines := mines + {(x, y)};
      }
    }

    /** Every cell before (ix, iy) in row-major order holds MINE or its number of adjacent mines. */
    ghost predicate NumberedBefore(ix: int, iy: int)
      requires Shape()
      reads this`mines, hiddenGrid
    {
      forall a, b {:trigger hiddenGrid[a, b]} :: InBounds(a, b, rows, cols) && (a < ix || (a == ix && b < iy)) ==>
        MINE <= hiddenGrid[a, b] <= 8 && ((a, b) !in mines ==> hiddenGrid[a, b] == |Neighbours(a, b, rows, cols) * mines|)
    }

    /** Writes into every non-mine hidden cell the number of its adjacent mines. */
    method NumberBoard()
      requires Shape() && MinesTied()
      modifies hiddenGrid
      ensures MinesTied() && Numbered() && HiddenRange()
    {
      for ix := 0 to rows
        invariant MinesTied() && NumberedBefore(ix, 0)
      {
        for iy := 0 to cols
          invariant MinesTied() && NumberedBefore(ix, iy)
        {
          label before:
          if hiddenGrid[ix, iy] != MINE {
            var n := CountAdjacentMines(ix, iy);
            hiddenGrid[ix, iy] := n;
          }
          forall a, b | InBounds(a, b, rows, cols) && (a < ix || (a == ix && b < iy + 1))
            ensures MINE <= hiddenGrid[a, b] <= 8
            ensures (a, b) !in mines ==> hiddenGrid[a, b] == |Neighbours(a, b, rows, cols) * mines|
          {
            if (a, b) != (ix, iy) {
              assert hiddenGrid[a, b] == old@before(hiddenGrid[a, b]);
            }
          }
        }
      }
    }

    /** Builds the hidden board around the first click and fills from the clicked cell. */
    method CreateHiddenBoard(rowIndex: int, columnIndex: int, draws: seq<Cell>) returns (placed: nat, used: nat)
      requires Shape() && MinesTied() && FlagsTied() && Budget() && RevealedTied() && ClearedTied()
      requires revealed == {} && cleared == {} && mines == {} && AllUntouched()
      requires InBounds(rowIndex, columnIndex, rows, cols)
      requires forall d {:trigger d in draws} :: d in draws ==> InBounds(d.0, d.1, rows, cols)
      modifies hiddenGrid, userGrid, clearedGrid, this`mines, this`flagCount, this`flags, this`revealed, this`cleared, this`trace
      ensures Board() && cleared <= revealed && ClosedExcept({})
      ensures SafeZone(mines, rowIndex, columnIndex)
      ensures SampledUntil(mines, draws, used, rowIndex, columnIndex, MineTarget(rows, cols))
      ensures placed == |mines| <= MineTarget(rows, cols)
      ensures placed < MineTarget(rows, cols) ==> used == |draws|
      ensures |DrawnOutside(draws, rowIndex, columnIndex)| >= MineTarget(rows, cols) ==> placed == MineTarget(rows, cols)
      ensures hiddenGrid[rowIndex, columnIndex] == CLEAR
      ensures Block(rowIndex, columnIndex, rows, cols) <= revealed && revealed !! mines
      ensures revealed <= {(rowIndex, columnIndex)} + FedBy(revealed)
      ensures Grew({}, old(trace), revealed, trace, {(rowIndex, columnIndex)}, Zeros())
      ensures forall i, j :: InBounds(i, j, rows, cols) && (i, j) !in revealed ==> userGrid[i, j] == old(userGrid[i, j])
    {
      placed, used := PlaceMines(rowIndex, columnIndex, draws);
      NumberBoard();
      OpenFirstCell(rowIndex, columnIndex);
    }

    /** The last step of building the board: the fill from the first-clicked cell, which the safe
        zone makes a 0 cell. */
    method OpenFirstCell(rowIndex: int, columnIndex: int)
      requires Shape() && MinesTied() && Numbered() && HiddenRange() && FlagsTied() && Budget() && ClearedTied()
      requires revealed == {} && cleared == {}
      requires forall i, j :: InBounds(i, j, rows, cols) ==> userGrid[i, j] == UNTOUCHED || userGrid[i, j] == FLAG
      requires InBounds(rowIndex, columnIndex, rows, cols) && SafeZone(mines, rowIndex, columnIndex)
      modifies userGrid, clearedGrid, this`flagCount, this`flags, this`revealed, this`cleared, this`trace
      ensures Board() && cleared <= revealed && ClosedExcept({})
      ensures hiddenGrid[rowIndex, columnIndex] == CLEAR
      ensures Block(rowIndex, columnIndex, rows, cols) <= revealed && revealed !! mines
      ensures revealed <= {(rowIndex, columnIndex)} + FedBy(revealed)
      ensures Grew({}, old(trace), revealed, trace, {(rowIndex, columnIndex)}, Zeros())
      ensures forall i, j :: InBounds(i, j, rows, cols) && (i, j) !in revealed ==> userGrid[i, j] == old(userGrid[i, j])
    {
      SafeZoneCountsZero(rowIndex, columnIndex, rows, cols, mines);
      NothingRevealedIsClosed({(rowIndex, columnIndex)});
      ClearSurrounding(rowIndex, columnIndex, {}, (rowIndex, columnIndex));
      GrewWiden(old(revealed), old(trace), revealed, trace, {} + {(rowIndex, columnIndex)}, {(rowIndex, columnIndex)}, Zeros());
    }

    /** With nothing revealed, whatever the hidden grid holds, the ties to it and the closure hold. */
    lemma NothingRevealedIsClosed(pending: set<Cell>)
      requires Shape() && revealed == {}
      requires forall i, j :: InBounds(i, j, rows, cols) ==> userGrid[i, j] == UNTOUCHED || userGrid[i, j] == FLAG
      ensures RevealedTied() && ClosedExcept(pending)
    {
    }

    /** A left click on an in-bounds UNTOUCHED cell. The first one builds the board; a later one
        shows the cell, ends the game on a mine, and fills from a 0 cell. */
    method LeftClick(row: int, column: int, draws: seq<Cell>) returns (drawsUsed: nat)
      requires Valid() && !mineTriggered
      requires InBounds(row, column, rows, cols) && userGrid[row, column] == UNTOUCHED
      requires forall d {:trigger d in draws} :: d in draws ==> InBounds(d.0, d.1, rows, cols)
      modifies this, userGrid, hiddenGrid, clearedGrid
      ensures Valid() && !firstClick && matchingBoards == old(matchingBoards)
      ensures (row, column) in revealed && old(revealed) <= revealed
      ensures forall i, j :: InBounds(i, j, rows, cols) && (i, j) !in revealed ==> userGrid[i, j] == old(userGrid[i, j])
      ensures revealed - old(revealed) <= {(row, column)} + FedBy(revealed)
      ensures Grew(old(revealed), old(trace), revealed, trace, {(row, column)}, Zeros())
      ensures flags == old(flags) - revealed
      ensures old(firstClick) ==>
                SafeZone(mines, row, column) &&
                SampledUntil(mines, draws, drawsUsed, row, column, MineTarget(rows, cols)) &&
                |mines| <= MineTarget(rows, cols) &&
                (|mines| < MineTarget(rows, cols) ==> drawsUsed == |draws|) &&
                (|DrawnOutside(draws, row, column)| >= MineTarget(rows, cols) ==> |mines| == MineTarget(rows, cols)) &&
                !mineTriggered && Block(row, column, rows, cols) <= revealed
      ensures !old(firstClick) ==> mines == old(mines) && unchanged(hiddenGrid) && drawsUsed == 0 && (mineTriggered <==> (row, column) in mines)
      ensures !old(firstClick) && mineTriggered ==> revealed == old(revealed) + {(row, column)} && flagCount == old(flagCount)
      ensures !old(firstClick) && hiddenGrid[row, column] != CLEAR ==> revealed == old(revealed) + {(row, column)}
    {
      if firstClick {
        drawsUsed := FirstLeftClick(row, column, draws);
      } else {
        drawsUsed := 0;
        LaterLeftClick(row, column);
      }
    }

    /** The first-click branch of a left click: the hidden board is built around the clicked cell,
        the cell is shown (the fill has shown it already) and the session leaves its first phase. */
    method FirstLeftClick(row: int, column: int, draws: seq<Cell>) returns (drawsUsed: nat)
      requires Valid() && firstClick
      requires InBounds(row, column, rows, cols)
      requires forall d {:trigger d in draws} :: d in draws ==> InBounds(d.0, d.1, rows, cols)
      modifies userGrid, hiddenGrid, clearedGrid, this`mines, this`flagCount, this`flags, this`revealed, this`cleared, this`trace, this`firstClick
      ensures Valid() && !firstClick
      ensures (row, column) in revealed && revealed !! mines
      ensures forall i, j :: InBounds(i, j, rows, cols) && (i, j) !in revealed ==> userGrid[i, j] == old(userGrid[i, j])
      ensures SafeZone(mines, row, column)
      ensures SampledUntil(mines, draws, drawsUsed, row, column, MineTarget(rows, cols))
      ensures |mines| <= MineTarget(rows, cols)
      ensures |mines| < MineTarget(rows, cols) ==> drawsUsed == |draws|
      ensures |DrawnOutside(draws, row, column)| >= MineTarget(rows, cols) ==> |mines| == MineTarget(rows, cols)
      ensures Block(row, column, rows, cols) <= revealed
      ensures revealed <= {(row, column)} + FedBy(revealed)
      ensures Grew({}, old(trace), revealed, trace, {(row, column)}, Zeros())
    {
      var placed;
      placed, drawsUsed := CreateHiddenBoard(row, column, draws);
      userGrid[row, column] := hiddenGrid[row, column];
      firstClick := false;
      BoardIsValid();
    }

    /** The later-click branch of a left click: the cell is shown; a mine ends the game, a 0
        starts the fill. */
    method LaterLeftClick(row: int, column: int)
      requires Valid() && !firstClick && !mineTriggered
      requires InBounds(row, column, rows, cols) && userGrid[row, column] == UNTOUCHED
      modifies userGrid, clearedGrid, this`flagCount, this`flags, this`revealed, this`cleared, this`trace, this`mineTriggered
      ensures Valid() && (row, column) in revealed && old(revealed) <= revealed
      ensures forall i, j :: InBounds(i, j, rows, cols) && (i, j) !in revealed ==> userGrid[i, j] == old(userGrid[i, j])
      ensures mineTriggered <==> (row, column) in mines
      ensures mineTriggered ==> revealed == old(revealed) + {(row, column)} && flagCount == old(flagCount)
      ensures hiddenGrid[row, column] != CLEAR ==> revealed == old(revealed) + {(row, column)}
      ensures revealed - old(revealed) <= {(row, column)} + FedBy(revealed)
      ensures Grew(old(revealed), old(trace), revealed, trace, {(row, column)}, Zeros())
    {
      // The cell is UNTOUCHED, so RevealCell refunds no flag here.
      RevealCell(row, column, (row, column));
      if userGrid[row, column] == MINE {
        assert (row, column) in mines;
        mineTriggered := true;
        NonZeroCloses({}, row, column);
        GrewByRoot(old(revealed), old(trace), (row, column), (row, column), {(row, column)}, Zeros());
      } else if hiddenGrid[row, column] == CLEAR {
        ghost var shown, t := revealed, trace;
        FillFromClick(row, column);
        OpenThenFill(old(revealed), old(trace), (row, column), (row, column), shown, t, revealed, trace, {(row, column)}, Zeros());
      } else {
        assert (row, column) !in mines;
        NonZeroCloses({}, row, column);
        GrewByRoot(old(revealed), old(trace), (row, column), (row, column), {(row, column)}, Zeros());
      }
      BoardIsValid();
    }

    /** The fill a later left click starts from the 0 cell it has just shown. Everything it shows
        is traced back to that cell. */
    method FillFromClick(row: int, column: int)
      requires Board() && !firstClick && !mineTriggered && cleared <= revealed && revealed !! mines
      requires InBounds(row, column, rows, cols) && hiddenGrid[row, column] == CLEAR && (row, column) in revealed
      requires ClosedExcept({(row, column)})
      modifies userGrid, clearedGrid, this`flagCount, this`flags, this`revealed, this`cleared, this`trace
      ensures Valid() && old(revealed) <= revealed
      ensures forall i, j :: InBounds(i, j, rows, cols) && (i, j) !in revealed ==> userGrid[i, j] == old(userGrid[i, j])
      ensures revealed - old(revealed) <= FedBy(revealed)
      ensures Grew(old(revealed), old(trace), revealed, trace, {(row, column)}, Zeros())
    {
      ClearSurrounding(row, column, {}, (row, column));
      GrewWiden(old(revealed), old(trace), revealed, trace, {} + {(row, column)}, {(row, column)}, Zeros());
      BoardIsValid();
    }

    /** After the first click the invariant is the complete board plus the fill's closure. */
    lemma BoardIsValid()
      requires Board() && !firstClick && cleared <= revealed && ClosedExcept({})
      requires !mineTriggered ==> revealed !! mines
      ensures Valid()
    {
    }

    /** A right click on an in-bounds cell: plant a flag on an UNTOUCHED cell while the budget is
        positive, lift a flag, leave any other cell alone. */
    method RightClick(row: int, column: int)
      requires Valid() && InBounds(row, column, rows, cols)
      modifies userGrid, this`flagCount, this`flags
      ensures Valid()
      ensures (userGrid[row, column], flagCount) == ToggleFlag(old(userGrid[row, column]), old(flagCount))
      ensures forall i, j :: InBounds(i, j, rows, cols) && (i, j) != (row, column) ==> userGrid[i, j] == old(userGrid[i, j])
      ensures flags - {(row, column)} == old(flags) - {(row, column)}
    {
      if userGrid[row, column] == UNTOUCHED && flagCount > 0.0 {
        assert (row, column) !in flags;
        Cover(row, column, FLAG);
        flagCount := flagCount - 1.0;
      } else if userGrid[row, column] == FLAG {
        assert (row, column) in flags;
        Cover(row, column, UNTOUCHED);
        flagCount := flagCount + 1.0;
      }
      assert unchanged(this`mines, this`revealed, this`cleared, this`firstClick, this`mineTriggered, hiddenGrid, clearedGrid);
    }

    /** Puts a flag on, or takes it off, a cell the player has not revealed. */
    method Cover(r: int, c: int, v: int)
      requires Shape() && FlagsTied() && RevealedTied() && InBounds(r, c, rows, cols)
      requires (r, c) !in revealed && (v == FLAG || v == UNTOUCHED)
      modifies userGrid, this`flags
      ensures FlagsTied() && RevealedTied()
      ensures userGrid[r, c] == v
      ensures forall i, j :: InBounds(i, j, rows, cols) && (i, j) != (r, c) ==> userGrid[i, j] == old(userGrid[i, j])
      ensures flags == if v == FLAG then old(flags) + {(r, c)} else old(flags) - {(r, c)}
      ensures flags - {(r, c)} == old(flags) - {(r, c)}
    {
      userGrid[r, c] := v;
      flags := if v == FLAG then flags + {(r, c)} else flags - {(r, c)};
    }

    /** The press `e` is a left press on an in-grid UNTOUCHED cell: the one kind of press that
        reveals. */
    ghost predicate Opens(e: Event)
      requires Shape()
      reads userGrid
    {
      InBounds(e.row, e.column, rows, cols) && e.button == 1 && userGrid[e.row, e.column] == UNTOUCHED
    }

    /** One mouse press: a left click on an UNTOUCHED cell reveals, a right click toggles a flag,
        and everything else (off the grid, another button, a left click elsewhere) does nothing. */
    method HandleClick(event: Event, draws: seq<Cell>) returns (drawsUsed: nat)
      requires Valid() && !mineTriggered
      requires forall d {:trigger d in draws} :: d in draws ==> InBounds(d.0, d.1, rows, cols)
      modifies this, userGrid, hiddenGrid, clearedGrid
      ensures Valid() && old(revealed) <= revealed && matchingBoards == old(matchingBoards)
      ensures !InBounds(event.row, event.column, rows, cols) || (event.button != 1 && event.button != 3) ||
              (event.button == 1 && old(userGrid[event.row, event.column]) != UNTOUCHED) ==>
                unchanged(this, userGrid, hiddenGrid, clearedGrid)
      // Only the first opening press builds the board; after it the board stays as it is.
      ensures firstClick == (old(firstClick) && !old(Opens(event)))
      ensures firstClick == old(firstClick) ==> mines == old(mines) && unchanged(hiddenGrid) && drawsUsed == 0
      // A left press on an UNTOUCHED cell: the cell is shown, and it ends the game exactly when it is a mine.
      ensures old(Opens(event)) ==>
                event.Target() in revealed &&
                (mineTriggered <==> !old(firstClick) && event.Target() in mines) &&
                revealed - old(revealed) <= {event.Target()} + FedBy(revealed)
      ensures old(Opens(event)) && !old(firstClick) && hiddenGrid[event.row, event.column] != CLEAR ==>
                revealed == old(revealed) + {event.Target()}
      // The first such press places the mines from the draws, away from the pressed cell's block.
      ensures old(Opens(event)) && old(firstClick) ==>
                SafeZone(mines, event.row, event.column) &&
                SampledUntil(mines, draws, drawsUsed, event.row, event.column, MineTarget(rows, cols)) &&
                |mines| <= MineTarget(rows, cols) &&
                (|mines| < MineTarget(rows, cols) ==> drawsUsed == |draws|) &&
                (|DrawnOutside(draws, event.row, event.column)| >= MineTarget(rows, cols) ==> |mines| == MineTarget(rows, cols))
      // Every newly shown cell is the left-pressed cell or reached from it through 0 cells.
      ensures revealed == old(revealed) || (event.button == 1 && event.Target() in revealed)
      ensures Grew(old(revealed), old(trace), revealed, trace, if event.button == 1 then {event.Target()} else {}, Zeros())
      // A right press: the cell and the budget are toggled, and nothing is revealed.
      ensures InBounds(event.row, event.column, rows, cols) && event.button == 3 ==>
                (userGrid[event.row, event.column], flagCount) == ToggleFlag(old(userGrid[event.row, event.column]), old(flagCount)) &&
                revealed == old(revealed) && mines == old(mines) && firstClick == old(firstClick) && !mineTriggered
      // Only a right press changes a cell that stays hidden, and only its own cell; only it plants a flag.
      ensures event.button != 3 ==>
                forall i, j :: InBounds(i, j, rows, cols) && (i, j) !in revealed ==> userGrid[i, j] == old(userGrid[i, j])
      ensures event.button == 3 ==>
                forall i, j :: InBounds(i, j, rows, cols) && (i, j) != event.Target() ==> userGrid[i, j] == old(userGrid[i, j])
      ensures event.button == 3 ==> flags - {event.Target()} == old(flags) - {event.Target()} && revealed == old(revealed)
      ensures event.button != 3 ==> flags == old(flags) - revealed
      // A mine ends the game only under the left-pressed cell, which is then the one cell shown.
      ensures mineTriggered ==> event.button == 1 && event.Target() in mines && revealed == old(revealed) + {event.Target()}
    {
      FlagsHidden();
      drawsUsed := 0;
      var row, column := event.row, event.column;
      if 0 <= row < rows && 0 <= column < cols {
        if event.button == 1 && userGrid[row, column] == UNTOUCHED {
          drawsUsed := LeftClick(row, column, draws);
          assert event.Target() == (row, column);
          return;
        } else if event.button == 3 {
          RightClick(row, column);
          GrewNothing(revealed, trace, trace, {}, Zeros());
          return;
        }
      }
      GrewNothing(revealed, trace, trace, {}, Zeros());
    }

    /** A flagged cell is never a revealed one. */
    lemma FlagsHidden()
      requires Shape() && FlagsTied() && RevealedTied()
      ensures flags !! revealed
    {
    }

    /** The event loop of one frame: the presses in order, stopping after the one that triggers a
        mine. `processed` is the number of presses handled; when the frame builds the board,
        `opener` is the press that did so and `used` the number of draws it took. */
    method HandlePresses(events: seq<Event>, draws: seq<Cell>) returns (ghost processed: nat, ghost opener: nat, ghost used: nat)
      requires Valid() && !mineTriggered
      requires forall d {:trigger d in draws} :: d in draws ==> InBounds(d.0, d.1, rows, cols)
      modifies this, userGrid, hiddenGrid, clearedGrid
      ensures Valid() && old(revealed) <= revealed && matchingBoards == old(matchingBoards)
      ensures processed <= |events| && (processed < |events| ==> mineTriggered)
      ensures mineTriggered ==>
                (0 < processed && events[processed - 1].button == 1 &&
                 events[processed - 1].Target() in mines && events[processed - 1].Target() in revealed)
      // The board is built at most once, by the first opening press, and then stays as it is.
      ensures firstClick ==> old(firstClick)
      ensures firstClick == old(firstClick) ==> mines == old(mines)
      ensures old(firstClick) && !firstClick ==>
                opener < processed && BuiltBy(events[opener], draws, used, mines, rows, cols)
      ensures old(firstClick) && !firstClick ==>
                forall m :: 0 <= m < opener ==> !OpensCovered(events, m, rows, cols, old(flags))
      // A handled left press on a cell that was not flagged, and not right-pressed before it, shows that cell.
      ensures OpenedUpTo(events, processed, rows, cols, old(flags), revealed)
      // Every newly shown cell is a left-pressed cell or reached from one through 0 cells.
      ensures Grew(old(revealed), old(trace), revealed, trace, Pressed(events, processed, 1) * revealed, Zeros())
      // A cell no handled press right-clicked carries a flag exactly when it did before and is still hidden.
      ensures flags - Pressed(events, processed, 3) == old(flags) - Pressed(events, processed, 3) - revealed
    {
      opener, used := 0, 0;
      ghost var s0 := Now();
      FlagsHidden();
      PressesStart(events, draws, rows, cols, s0, Zeros());
      var k := 0;
      while k < |events| && !mineTriggered
        invariant k <= |events| && Valid() && matchingBoards == old(matchingBoards)
        invariant Progress(events, k, draws, rows, cols, s0, Now(), mineTriggered, opener, used, Zeros())
      {
        opener, used := HandleNext(events, k, draws, s0, opener, used);
        k := k + 1;
      }
      processed := k;
    }

    /** One turn of the event loop: press k is handled, and what the loop knows of the presses
        before it, measured from the snapshot `s0` taken at the top of the frame, is extended to it. */
    method HandleNext(events: seq<Event>, k: nat, draws: seq<Cell>, ghost s0: Snapshot, ghost opener0: nat, ghost used0: nat)
      returns (ghost opener: nat, ghost used: nat)
      requires k < |events| && Valid() && !mineTriggered
      requires forall d {:trigger d in draws} :: d in draws ==> InBounds(d.0, d.1, rows, cols)
      requires Progress(events, k, draws, rows, cols, s0, Now(), mineTriggered, opener0, used0, Zeros())
      modifies this, userGrid, hiddenGrid, clearedGrid
      ensures Valid() && matchingBoards == old(matchingBoards)
      ensures Progress(events, k + 1, draws, rows, cols, s0, Now(), mineTriggered, opener, used, Zeros())
    {
      if OpensCovered(events, k, rows, cols, s0.flags) && events[k].Target() !in revealed {
        assert events[k].Target() !in s0.flags - Pressed(events, k, 3) - revealed;
        assert events[k].Target() !in flags;
        HiddenIsCovered(events[k].row, events[k].column);
      }
      ghost var before, flagsBefore, t, zeros, building := revealed, flags, trace, Zeros(), firstClick;
      var drawsUsed := HandleClick(events[k], draws);
      opener, used := opener0, used0;
      if building && !firstClick {
        opener, used := k, drawsUsed;
      }
      if building {
        assert s0.revealed <= before == {};
        assert forall m :: 0 <= m < k ==> !OpensCovered(events, m, rows, cols, s0.flags);
      } else {
        assert Zeros() == zeros;
      }
      PressExtends(events, k, rows, cols, s0.flags, s0.revealed, s0.trace, before, t, flagsBefore, zeros, revealed, trace, flags, Zeros());
      assert events[k + 1 - 1] == events[k];
    }

    /** A cell that is neither revealed nor flagged shows UNTOUCHED. */
    lemma HiddenIsCovered(i: int, j: int)
      requires Shape() && FlagsTied() && RevealedTied() && InBounds(i, j, rows, cols)
      requires (i, j) !in revealed && (i, j) !in flags
      ensures userGrid[i, j] == UNTOUCHED
    {
    }

    /** One pass of the frame loop: the frame's presses; then, once the board exists, the win
        scan; then the status, defeat taking priority. */
    method Frame(events: seq<Event>, draws: seq<Cell>) returns (status: Status, ghost processed: nat, ghost opener: nat, ghost used: nat)
      requires Valid() && !mineTriggered && !matchingBoards
      requires forall d {:trigger d in draws} :: d in draws ==> InBounds(d.0, d.1, rows, cols)
      modifies this, userGrid, hiddenGrid, clearedGrid
      ensures Valid() && old(revealed) <= revealed
      ensures processed <= |events| && (processed < |events| ==> mineTriggered)
      ensures mineTriggered ==>
                (0 < processed && events[processed - 1].button == 1 && events[processed - 1].Target() in mines)
      ensures firstClick ==> old(firstClick)
      ensures firstClick == old(firstClick) ==> mines == old(mines)
      ensures old(firstClick) && !firstClick ==> opener < processed && BuiltBy(events[opener], draws, used, mines, rows, cols)
      ensures old(firstClick) && !firstClick ==>
                forall m :: 0 <= m < opener ==> !OpensCovered(events, m, rows, cols, old(flags))
      ensures OpenedUpTo(events, processed, rows, cols, old(flags), revealed)
      ensures Grew(old(revealed), old(trace), revealed, trace, Pressed(events, processed, 1) * revealed, Zeros())
      ensures revealed - old(revealed) <= Pressed(events, processed, 1) + FedBy(revealed)
      ensures flags - Pressed(events, processed, 3) == old(flags) - Pressed(events, processed, 3) - revealed
      ensures matchingBoards <==> !firstClick && Won()
      ensures status == Outcome(mineTriggered, matchingBoards)
    {
      processed, opener, used := HandlePresses(events, draws);
      GrewFeeds(old(revealed), old(trace), trace, Pressed(events, processed, 1) * revealed);
      WithinPressed(revealed - old(revealed), Pressed(events, processed, 1), revealed, FedBy(revealed));
      if !firstClick {
        var temp := CheckVictory();
        if temp {
          matchingBoards := true;
        }
      }
      status := Outcome(mineTriggered, matchingBoards);
    }

    /** Victory is the same as every non-mine cell being revealed. */
    lemma WonIffSafeCellsRevealed()
      requires Valid() && !firstClick
      ensures Won() <==> AllCells(rows, cols) - mines <= revealed
    {
    }

    /** A non-mine cell left UNTOUCHED or flagged blocks victory. */
    lemma CoveredCellBlocksVictory(i: int, j: int)
      requires Valid() && !firstClick && InBounds(i, j, rows, cols) && (i, j) !in mines
      requires userGrid[i, j] == UNTOUCHED || userGrid[i, j] == FLAG
      ensures !Won()
    {
    }

    /** Before the first click the raw comparison already holds on an unflagged board, which is
        why the win scan runs only after the first click. */
    lemma FreshBoardMatches()
      requires Valid() && firstClick && flags == {}
      ensures Won()
    {
    }

    /** The flags planted never exceed the mine count by more than one. */
    lemma FlagsWithinCeiling()
      requires Valid()
      ensures |flags| <= MineTarget(rows, cols) + 1
      ensures (rows * cols) % 6 == 0 ==> |flags| <= MineTarget(rows, cols)
    {
      FlagCeiling(rows, cols, |flags|, flagCount);
    }
  }
}

=== FILE: rules.dfy ===
/** Board geometry, cell encodings and the small per-cell rules of the game.
    Everything here is a value: the grids themselves live in MinesweeperGame. */
module MineRules {

  /** Cell encodings shared by the user, hidden and cleared grids. */
  const CLEAR := 0
  const UNTOUCHED := 9
  const FLAG := 10
  const MINE := -1

  /** A grid position (row, column). */
  type Cell = (int, int)

  /** Outcome of a frame of play: defeat is decided before victory. */
  datatype Status = InProgress | Victory | Defeat

  predicate InBounds(i: int, j: int, rows: int, cols: int)
  {
    0 <= i < rows && 0 <= j < cols
  }

  /** (i, j) lies in the 3×3 block centred on (r, c), ignoring the grid's edges. */
  predicate InBlock(i: int, j: int, r: int, c: int)
  {
    r - 1 <= i <= r + 1 && c - 1 <= j <= c + 1
  }

  /** No mine lies in the 3×3 block centred on (r, c): the zone kept clear around the first click. */
  predicate SafeZone(mines: set<Cell>, r: int, c: int)
  {
    forall x {:trigger x in mines} :: x in mines ==> !InBlock(x.0, x.1, r, c)
  }

  /** The distinct cells among `draws` that lie outside the 3×3 block around (r, c): the cells
      where rejection sampling keeps a mine. */
  function DrawnOutside(draws: seq<Cell>, r: int, c: int): (s: set<Cell>)
    ensures SafeZone(s, r, c)
  {
    set x | x in draws && !InBlock(x.0, x.1, r, c)
  }

  /** Rejection sampling that stops as soon as it can: `mines` are the distinct cells of
      draws[..used] outside the 3×3 block around (r, c), and no shorter prefix of the draws holds
      `target` such cells. */
  predicate SampledUntil(mines: set<Cell>, draws: seq<Cell>, used: int, r: int, c: int, target: nat)
  {
    0 <= used <= |draws| && mines == DrawnOutside(draws[..used], r, c) &&
    forall u :: 0 <= u < used ==> |DrawnOutside(draws[..u], r, c)| < target
  }

  /** One more draw adds its cell to the drawn-outside set exactly when it lies outside the block. */
  lemma DrawnOutsideStep(draws: seq<Cell>, u: int, r: int, c: int)
    requires 0 <= u < |draws|
    ensures DrawnOutside(draws[..u + 1], r, c)
         == DrawnOutside(draws[..u], r, c) + (if InBlock(draws[u].0, draws[u].1, r, c) then {} else {draws[u]})
  {
    assert draws[..u + 1] == draws[..u] + [draws[u]];
  }

  /** Every cell of a rows × cols grid. */
  function AllCells(rows: int, cols: int): (s: set<Cell>)
    ensures forall i, j :: (i, j) in s <==> InBounds(i, j, rows, cols)
  {
    set i, j | 0 <= i < rows && 0 <= j < cols :: (i, j)
  }

  /** The in-bounds cells of the 3×3 block around (r, c), without (r, c) itself. */
  function Neighbours(r: int, c: int, rows: int, cols: int): (s: set<Cell>)
    ensures forall i, j :: (i, j) in s <==> InBlock(i, j, r, c) && InBounds(i, j, rows, cols) && (i, j) != (r, c)
    ensures |s| <= 8
  {
    var s := set i, j | r - 1 <= i <= r + 1 && c - 1 <= j <= c + 1 && 0 <= i < rows && 0 <= j < cols && (i, j) != (r, c) :: (i, j);
    NeighboursWithinEight(r, c, s);
    s
  }

  /** Any set of cells drawn from the 3×3 block around (r, c) minus its centre has at most 8 members. */
  lemma NeighboursWithinEight(r: int, c: int, s: set<Cell>)
    requires forall x {:trigger x in s} :: x in s ==> InBlock(x.0, x.1, r, c) && x != (r, c)
    ensures |s| <= 8
  {
    var ring := {(r - 1, c - 1), (r - 1, c), (r - 1, c + 1), (r, c - 1), (r, c + 1), (r + 1, c - 1), (r + 1, c), (r + 1, c + 1)};
    assert s <= ring;
    SubsetCardinality(s, ring);
  }

  lemma {:induction false} SubsetCardinality<T>(a: set<T>, b: set<T>)
    requires a <= b
    ensures |a| <= |b|
  {
    if a != {} {
      var x :| x in a;
      SubsetCardinality(a - {x}, b - {x});
    }
  }

  /** Number of mines of a rows × cols board: the integer part of rows*cols/6. */
  function MineTarget(rows: nat, cols: nat): (n: nat)
    ensures 6 * n <= rows * cols < 6 * (n + 1)
  {
    rows * cols / 6
  }

  /** The initial flag budget: rows*cols/6 as an exact fraction, not rounded down. */
  function InitialBudget(rows: nat, cols: nat): (b: real)
    ensures 6.0 * b == (rows * cols) as real
    ensures MineTarget(rows, cols) as real <= b < MineTarget(rows, cols) as real + 1.0
  {
    (rows * cols) as real / 6.0
  }

  /** A right click on one cell: the new cell value and the new budget. */
  function ToggleFlag(cell: int, budget: real): (r: (int, real))
    ensures (if r.0 == FLAG then 1.0 else 0.0) + r.1 == (if cell == FLAG then 1.0 else 0.0) + budget
    ensures r.0 == FLAG <==> cell == UNTOUCHED && budget > 0.0
    ensures r.0 != cell ==> (cell == UNTOUCHED && r.0 == FLAG) || (cell == FLAG && r.0 == UNTOUCHED)
    ensures budget > -1.0 ==> r.1 > -1.0
  {
    if cell == UNTOUCHED && budget > 0.0 then (FLAG, budget - 1.0)
    else if cell == FLAG then (UNTOUCHED, budget + 1.0)
    else (cell, budget)
  }

  /** The status reported once a frame's events are processed. */
  function Outcome(mineTriggered: bool, matchingBoards: bool): (s: Status)
    ensures s == Defeat <==> mineTriggered
    ensures s == Victory <==> matchingBoards && !mineTriggered
    ensures s == InProgress <==> !mineTriggered && !matchingBoards
  {
    if !mineTriggered && !matchingBoards then InProgress
    else if mineTriggered then Defeat
    else Victory
  }

  /** The mines among the neighbours of (r, c) that come before (ii, jj) in row-major order:
      what the adjacency scan has counted when it reaches (ii, jj). */
  function MinesBefore(r: int, c: int, rows: int, cols: int, mines: set<Cell>, ii: int, jj: int): (s: set<Cell>)
  {
    set x | x in mines && InBlock(x.0, x.1, r, c) && InBounds(x.0, x.1, rows, cols) && x != (r, c)
              && (x.0 < ii || (x.0 == ii && x.1 < jj))
  }

  /** Scanning one more block cell adds one to the count exactly when it is an in-bounds mine other than the centre. */
  lemma ScanStep(r: int, c: int, rows: int, cols: int, mines: set<Cell>, ii: int, jj: int)
    requires InBlock(ii, jj, r, c)
    ensures |MinesBefore(r, c, rows, cols, mines, ii, jj + 1)|
         == |MinesBefore(r, c, rows, cols, mines, ii, jj)|
            + (if InBounds(ii, jj, rows, cols) && (ii, jj) != (r, c) && (ii, jj) in mines then 1 else 0)
  {
    var before := MinesBefore(r, c, rows, cols, mines, ii, jj);
    var after := MinesBefore(r, c, rows, cols, mines, ii, jj + 1);
    if InBounds(ii, jj, rows, cols) && (ii, jj) != (r, c) && (ii, jj) in mines {
      assert (ii, jj) !in before && after == before + {(ii, jj)};
    } else {
      assert after == before;
    }
  }

  /** Scanning past the last column of a block row is the same as starting the next row. */
  lemma ScanNextRow(r: int, c: int, rows: int, cols: int, mines: set<Cell>, ii: int)
    ensures MinesBefore(r, c, rows, cols, mines, ii, c + 2) == MinesBefore(r, c, rows, cols, mines, ii + 1, c - 1)
  {
  }

  /** Nothing is counted before the block's first cell, and every adjacent mine after its last row. */
  lemma ScanBounds(r: int, c: int, rows: int, cols: int, mines: set<Cell>)
    ensures MinesBefore(r, c, rows, cols, mines, r - 1, c - 1) == {}
    ensures MinesBefore(r, c, rows, cols, mines, r + 2, c - 1) == Neighbours(r, c, rows, cols) * mines
  {
  }

  /** The in-bounds cells of the 3×3 block around (r, c), (r, c) included: the cells a fill from a
      0 cell visits. */
  function Block(r: int, c: int, rows: int, cols: int): (s: set<Cell>)
    ensures forall i, j :: (i, j) in s <==> InBlock(i, j, r, c) && InBounds(i, j, rows, cols)
  {
    set i, j | r - 1 <= i <= r + 1 && c - 1 <= j <= c + 1 && 0 <= i < rows && 0 <= j < cols :: (i, j)
  }

  /** The cells of Block(r, c, rows, cols) that come before (ii, jj) in row-major order. */
  function BlockBefore(r: int, c: int, rows: int, cols: int, ii: int, jj: int): (s: set<Cell>)
    ensures forall i, j :: (i, j) in s <==> (i, j) in Block(r, c, rows, cols) && (i < ii || (i == ii && j < jj))
  {
    set i, j | r - 1 <= i <= r + 1 && c - 1 <= j <= c + 1 && 0 <= i < rows && 0 <= j < cols
                 && (i < ii || (i == ii && j < jj)) :: (i, j)
  }

  lemma BlockStep(r: int, c: int, rows: int, cols: int, ii: int, jj: int)
    requires InBlock(ii, jj, r, c)
    ensures BlockBefore(r, c, rows, cols, ii, jj + 1)
         == BlockBefore(r, c, rows, cols, ii, jj) + (if InBounds(ii, jj, rows, cols) then {(ii, jj)} else {})
  {
  }

  lemma BlockNextRow(r: int, c: int, rows: int, cols: int, ii: int)
    ensures BlockBefore(r, c, rows, cols, ii, c + 2) == BlockBefore(r, c, rows, cols, ii + 1, c - 1)
  {
  }

  lemma BlockBounds(r: int, c: int, rows: int, cols: int)
    ensures BlockBefore(r, c, rows, cols, r - 1, c - 1) == {}
    ensures BlockBefore(r, c, rows, cols, r + 2, c - 1) == Block(r, c, rows, cols)
  {
  }

  /** A block cell that holds no mine: the centre of a 0-numbered cell, or one of its neighbours. */
  lemma NoMineNextToZero(r: int, c: int, rows: int, cols: int, mines: set<Cell>, i: int, j: int)
    requires |Neighbours(r, c, rows, cols) * mines| == 0 && (r, c) !in mines
    requires InBlock(i, j, r, c) && InBounds(i, j, rows, cols)
    ensures (i, j) !in mines
  {
    var around := Neighbours(r, c, rows, cols);
    assert around * mines == {};
    if (i, j) != (r, c) {
      assert (i, j) in around && (i, j) !in around * mines;
    }
  }

  /** Mines kept out of the 3×3 block around (r, c) leave (r, c) with no adjacent mine. */
  lemma SafeZoneCountsZero(r: int, c: int, rows: int, cols: int, mines: set<Cell>)
    requires SafeZone(mines, r, c)
    ensures |Neighbours(r, c, rows, cols) * mines| == 0
  {
    assert Neighbours(r, c, rows, cols) * mines == {};
  }

  /** Two right clicks on the same cell restore both the cell and the budget, for every
      budget the game can reach (it never falls to -1 or below). */
  lemma ToggleTwice(cell: int, budget: real)
    requires budget > -1.0
    ensures ToggleFlag(ToggleFlag(cell, budget).0, ToggleFlag(cell, budget).1) == (cell, budget)
  {
  }

  /** With a budget kept above -1 and conserved with the flag count, at most one flag more than
      there are mines can be planted, and none more when rows*cols is a multiple of 6. */
  lemma FlagCeiling(rows: nat, cols: nat, planted: nat, budget: real)
    requires budget + planted as real == InitialBudget(rows, cols) && budget > -1.0
    ensures planted <= MineTarget(rows, cols) + 1
    ensures (rows * cols) % 6 == 0 ==> planted <= MineTarget(rows, cols)
  {
  }

  /** On the 10×10 board there are 16 mines, yet after 16 flags the budget is still positive
      and a 17th flag is accepted. */
  lemma TenByTenTakesSeventeenFlags()
    ensures MineTarget(10, 10) == 16
    ensures InitialBudget(10, 10) - 16.0 > 0.0
    ensures ToggleFlag(UNTOUCHED, InitialBudget(10, 10) - 16.0).0 == FLAG
    ensures ToggleFlag(UNTOUCHED, InitialBudget(10, 10) - 17.0).0 == UNTOUCHED
  {
  }
}
